=== FILE: README.md ===
# Business contact scraper — Dafny model

This project models the core of a scraper that builds business-contact records for Moroccan
businesses from mapping-service payloads and business websites:

- `parseQuery` turns a free-text query such as "dentiste fes" into a business type and a city.
- `searchIndividualBusiness` looks one business up and assembles its record. The record holds
  the reconciled display name, the first phone number, the first website, and the e-mails of
  that website. The e-mails come from the main page, or from the contact page when the main
  page has none.
- `scrapeBusinesses` runs one discovery lookup. It then searches the first `maxResults`
  discovered names one after another, with a pause between consecutive searches.
- The alternative scraper always falls back to three fixed sample records and enriches each one
  with the e-mails of its website.
- The address debugger ranks address candidates longest first and selects the longest. It then
  takes the ten longest in turn. Each is paired with the first regular-expression occurrence
  that captures it and that no earlier candidate took, and that occurrence's surrounding text
  is shown. A candidate with no such occurrence gets no report.

Network access becomes data. A fetch is a `FetchOutcome`: `Loaded(content)`, or `Failed` when
the call throws. The two capabilities are functions from query or URL to outcome. Every fetch
and every rate-limiting pause a run performs is recorded, in order, as an `Event` of a trace. Properties
such as "one pause fewer than there are names" or "the contact page is fetched only when the
main page yields no e-mail" are therefore statements about the trace.

The extraction helpers of the `utils` module, which is not modelled here, are uninterpreted: they are function-typed
fields of `Business.Extractors`.

The JavaScript string built-ins the core relies on are modelled in `Strings`:

- the `\s` whitespace class, including the Unicode spaces;
- `split(/\s+/)`, including its empty leading and trailing fields;
- `replace(/\s+/g, sep)`;
- `trim`;
- `includes`;
- `toLowerCase`.

Modules, one per file:

| file | module | models |
|---|---|---|
| outcomes.dfy | `Outcomes` | `Option` and `Result` |
| strings.dfy | `Strings` | the string built-ins |
| effects.dfy | `Effects` | fetch outcomes and the event trace |
| query.dfy | `Query` | `parseQuery` and the lookup string |
| names.dfy | `NameMatch` | name reconciliation |
| emails.dfy | `Emails` | contact URL and the e-mail fallback chain |
| business.dfy | `Business` | `searchIndividualBusiness` |
| batch.dfy | `Batch` | `scrapeBusinesses` |
| alternative.dfy | `Alternative` | alternative-scraper.js |
| ranking.dfy | `Ranking` | candidate sort and selection of debug-addresses.js |
| addresses.dfy | `Addresses` | occurrences, snippet windows and candidate pairing |

run.js searches the businesses one after another (run.js:235-259), and the model does the same.

## Model

| member | source | states |
|---|---|---|
| Strings.SplitSpaces | run.js:366 | Splitting on whitespace runs gives at least one field, and no field contains whitespace. |
| Strings.ReplaceSpaceRuns | run.js:18 | Replacing whitespace runs never lengthens the text. Its only "spaces" are single separators, never two adjacent ones. |
| Strings.JoinSplitIsReplace | run.js:18 | Replacing every whitespace run by a separator equals joining the whitespace-split fields with that separator. |
| Strings.Trim | run.js:385 | The trimmed text is a slice of the input with only whitespace cut off before and after it. It starts and ends with a non-space. It is unchanged when its ends are already non-space. |
| Strings.TrimKeepsSingleSpaced | run.js:391 | Trimming single-spaced text leaves it single-spaced. |
| Strings.Normalize | run.js:391 | Collapsing runs then trimming yields normalized text: single spaces, no space at either end. It keeps every non-whitespace character, in order. It is idempotent on normalized text. |
| Strings.VisibleReplace | run.js:391 | Replacing each whitespace run by one whitespace separator keeps the non-whitespace characters, in order. |
| Strings.VisibleTrim | run.js:385 | Trimming keeps the non-whitespace characters, in order. |
| Strings.NormalizeIsJoinedFields | run.js:391 | Normalizing equals trimming the whitespace-split fields joined by single spaces. |
| Strings.Lower | run.js:366 | `toLowerCase` keeps the length and maps each character to its lower-case form: ASCII and Latin-1 capitals become small letters, everything else is kept. No ASCII capital remains. |
| Strings.ContainsIff | run.js:88 | `includes` holds exactly when the term occurs at some position. |
| Strings.CollapseKeepsSingleSpaced | run.js:391 | Collapsing is the identity on text that is already single-spaced. |
| Strings.FirstSpaceAfterWord | run.js:366 | In a word followed by the end or by whitespace, the first whitespace is right after the word. |
| Strings.SplitTwoWords | run.js:366 | Splitting two non-empty whitespace-free words joined by one space gives exactly those two words. |
| Strings.LowerAppend | run.js:366 | Lower-casing distributes over concatenation. |
| Strings.LowerKeepsNoSpace | run.js:366 | Lower-casing whitespace-free text creates no whitespace. |
| Effects.Payload | run.js:25-29 | A payload counts as present exactly when the fetch loaded a non-empty text, and it is then that text. |
| Query.LookupQuery | run.js:18 | The lookup string ends with `+location`. |
| Query.LookupQueryShape | run.js:18 | The lookup string joins the whitespace-split name with `+` and ends with `+location`. The part before that suffix has no whitespace. |
| Query.FirstListedFrom | run.js:381-388 | It returns the first city in list order that is one of the words. No city is returned only when none of them is a word. |
| Query.RemoveWord | run.js:385 | The global whole-word removal never lengthens the text. |
| Query.NoMatchKeepsText | run.js:385 | Without a whole-word match the removal leaves the text unchanged. |
| Query.FoldAscii | run.js:385 | The `i` flag's case folding maps each lower-case ASCII letter to its own capital (32 code points lower), keeps capitals, and maps every other character to itself. A character is a word character exactly when its folded form is. |
| Query.MatchIsWholeRun | run.js:385 | At the start of a run of word characters, `\bcity\b` with the `i` flag matches a one-word city exactly when the whole run equals the city up to ASCII case. |
| Query.RemoveWordDropsRuns | run.js:385 | Removing a one-word city deletes exactly the maximal runs of word characters equal to it up to ASCII case. Every other character is kept, in order. |
| Query.DropLeavesNoWord | run.js:385 | After that deletion the one-word city no longer occurs as a whole word. |
| Query.TrimNoWord | run.js:385 | Trimming creates no whole-word occurrence of a one-word city. |
| Query.CollapseNoWord | run.js:391 | Collapsing whitespace runs creates no whole-word occurrence of a one-word city. |
| Query.CityRemovedFromType | run.js:385-391 | The business type built from any query contains a removed one-word city nowhere as a whole word. |
| Query.ParseWithRemovesCity | run.js:381-391 | When a listed one-word city is found among the words, the business type no longer contains it as a whole word. |
| Query.RemoveCityAfterType | run.js:385 | Removing a one-word city from "type city", with a one-word type that differs from it up to ASCII case, leaves the type followed by the space. |
| Query.TypeThenCity | run.js:385-391 | For a query "type city" made of two different single words, the business type is exactly the type. |
| Query.DentisteFes | run.js:385-391 | Removing "fes" from "dentiste fes", then trimming and collapsing, gives "dentiste". |
| Query.ParseWith | run.js:364-394 | For any city list containing "fes": the location is "fes" or a listed city, without whitespace, and it is a query word exactly when some listed city is. No listed city is a word before it. When a city is found, the business type is the query with that city removed as a whole word in any case, trimmed and collapsed. For a one-word city this equals deleting its word runs. With no city word, the result is the normalized query with "fes". |
| Query.ParseQuery | run.js:364-394 | The same for the Moroccan list, including how the business type is built from the rest of the query. The location is a single whitespace-free word. |
| Query.CleanedTypeDrops | run.js:385-391 | For a one-word city, the business type built with the regular-expression removal equals the one built by deleting the city's word runs. |
| Query.WordsOfTypeThenCity | run.js:366 | The words of "type city", for whitespace-free parts and a non-empty city, are exactly the lower-cased type and the lower-cased city. |
| Query.FirstListedIsLocation | run.js:381-388 | When a listed city is a query word and no earlier-listed city is, `parseQuery` picks that city as the location. |
| Query.TypeThenCityLocation | run.js:366-382 | In "type city" the words are the lower-cased type and the city, and the city is the location when no earlier-listed city is either word. |
| Query.ParseWithTypeThenCity | run.js:364-394 | For any city list, `parseQuery("type city")` returns exactly that type and that city, for a one-word type and a listed lower-case one-word city with no earlier entry equal to either word. |
| Query.ParseTypeThenCity | run.js:364-394 | The same for the Moroccan list. |
| Query.ParseDentisteFes | run.js:364-394 | `parseQuery("dentiste fes")` returns business type "dentiste" and location "fes". |
| Query.SpacedCityNeverChosen | run.js:366-382 | No query ever yields a city name containing whitespace as its location. |
| Query.HasWordFrom | run.js:385 | The scan answers true exactly when a whole-word, case-insensitive match exists at or after the start. |
| Query.FirstMatchingFrom | run.js:381-388 | It returns the first listed city the query contains as a whole word. It returns none only when no listed city is contained. |
| Query.ParseIntendedWith | run.js:364-394 | The corrected parse for any city list: the location is "fes" or listed, and when some listed city occurs as a whole word, it is one that occurs with no earlier-listed city occurring. The business type is then the query with that city removed, trimmed and collapsed, which for a one-word city equals deleting its word runs. With none, the result is the normalized query with "fes". |
| Query.IntendedPicksEarliest | run.js:381-388 | Under the corrected parse, the earliest-listed city that occurs as a whole word is the location. |
| Query.ParseQueryIntended | run.js:364-394 | The corrected parse: the location is the earliest listed city contained as a whole word, multi-word names included, and the business type is the query with it removed, trimmed and collapsed. Otherwise it is "fes" with the normalized query. |
| Query.MultiWordCityChosen | run.js:372 | Under the corrected parse, "beni mellal" is chosen when the query contains it and no earlier-listed city. |
| Query.ParseIntendedRemovesCity | run.js:381-391 | Under the corrected parse, a detected one-word city no longer occurs in the business type as a whole word. |
| Query.RemoveSpacedCityAfterType | run.js:385 | Removing a city, possibly of several words, from "type city" leaves "type " when the one-word type starts with a different letter. |
| Query.DentisteBeniMellal | run.js:385-391 | Under the corrected parse, removing "beni mellal" from "dentiste beni mellal", then trimming and collapsing, gives "dentiste". |
| Query.MissingLetterNoWord | run.js:385 | A text of spaces and lower-case letters that lacks one of a word's lower-case letters does not contain that word. |
| Query.BeniMellalOccurs | run.js:372-385 | "beni mellal" is the seventeenth listed city and occurs as a whole word in "dentiste beni mellal". |
| Query.NoCityBeforeBeniMellal | run.js:372 | None of the sixteen cities listed before "beni mellal" occurs as a whole word in "dentiste beni mellal". |
| Query.ParseIntendedDentisteBeniMellal | run.js:364-394 | Under the corrected parse, "dentiste beni mellal" returns business type "dentiste" and location "beni mellal". |
| NameMatch.SearchTerms | run.js:78 | The lower-cased search terms are never an empty list. |
| NameMatch.ScanBest | run.js:81-96 | From any state of the loop, the strict `>` scan ends at the first index of maximal score. |
| NameMatch.BestNameIndex | run.js:81-96 | The chosen index holds a maximal score, and every earlier index scores strictly less. |
| NameMatch.ReconcileName | run.js:74-101 | With no display name the search name is kept. Otherwise the result is a display name of maximal score, the earliest such. |
| NameMatch.TermScoreBounds | run.js:84-91 | A score never exceeds the summed term lengths. It reaches that sum exactly when every term occurs in the candidate. |
| NameMatch.FullMatchIsKept | run.js:74-101 | If some display name contains every search term, so does the reconciled name. |
| Emails.ContactUrl | run.js:131 | The contact URL extends the website and ends with "/contact". A slash is inserted only when the website does not already end with one. |
| Emails.ContactUrlIgnoresTrailingSlash | run.js:131 | A website written with or without a trailing slash gets the same contact URL. |
| Emails.TryPages | run.js:112-158 | In the fallback runner, there are as many 1-second pauses as page fetches, and no more fetches than pages. The trace opens with a pause and then the first page's fetch. E-mails found come from one of the pages. |
| Emails.TryPagesStopsAtFirstResult | run.js:112-158 | The runner fetches a non-empty prefix of the pages, in order, each once and right after its own pause. Every page before the last one fetched loaded without e-mails. It stops early only at a page that threw or had e-mails, and its e-mails are that last page's, or none when it threw. |
| Emails.PacedPages | run.js:117-136 | A paced trace requests exactly its pages, in order, with one pause per page. |
| Emails.EmailChain | run.js:112-158 | No website gives no e-mails and no fetch. A failed main fetch gives none. Main-page e-mails are kept, and the contact page is not fetched. Otherwise the contact page's e-mails are used, or none when it fails. The contact page is fetched exactly when the main page loaded with no e-mail. |
| Business.SearchIndividualBusiness | run.js:10-180 | The search starts with its own lookup and makes no other lookup and no 2-second pause. It yields no record exactly when the payload is missing or empty. |
| Business.SearchRecord | run.js:10-180 | Without a record only the lookup is performed. Otherwise the record has the reconciled name, the first phone number or `''`, the first website or `''`, and that website's fallback-chain e-mails. It keeps the given location, and site failures never drop the record. |
| Business.EmailTraceHasNoLookups | run.js:112-158 | The e-mail step performs no mapping-service lookup and no 2-second pause. |
| Batch.TakeFirst | run.js:225 | `slice(0, maxResults)` yields a prefix of the names. It has `maxResults` entries when non-negative and not past the end, and counts from the back when negative. |
| Batch.SearchAll | run.js:235-259 | The kept records are exactly the present results of the individual searches, in input order. The trace is the individual searches' traces in input order, with one 2-second pause between each two consecutive searches and none before the first or after the last. So one lookup is made per name, in order, and there is one pause fewer than there are names. |
| Batch.PauseBetweenTwoSearches | run.js:253-257 | For two names the trace is the first search, one 2-second pause, then the second search. |
| Effects.SeparatedIsGappedConcat | run.js:253-257 | Traces separated by pauses equal the traces concatenated after appending a pause to every one except the last. |
| Batch.ScrapeBusinesses | run.js:183-272 | A missing or empty discovery payload is an error. No discovered name gives no records after the single lookup. Otherwise the first `maxResults` names are searched in order, and no more than `maxResults` records result. The trace is the discovery lookup followed by the batch's searches separated by 2-second pauses. |
| Batch.PresentIsFilter | run.js:244-245 | A record is kept exactly when some individual search produced it. There are never more records than searches. |
| Batch.PresentAppend | run.js:244-245 | Filtering is order-preserving: the kept records of two consecutive runs of searches are concatenated. |
| Batch.BatchGrowsByAppending | run.js:225 | A larger `maxResults` only appends records to those of a smaller one. |
| Batch.AttemptsPrefix | run.js:225-242 | Searching the first `k` names gives the first `k` search results. |
| Batch.PresentPrefix | run.js:244-245 | The kept records of a prefix of the searches are a prefix of the kept records of all of them. |
| Batch.AttemptsAt | run.js:235-242 | Entry `i` of the searches is the individual search of name `i`. |
| Alternative.PlacesUrl | alternative-scraper.js:15 | The local-search URL is the fixed prefix, the query verbatim, then the fixed suffix. |
| Alternative.ScrapeGooglePlaces | alternative-scraper.js:10-33 | A failed request yields `''`. A successful one yields the page text. |
| Alternative.ExtractBusinessDataFromHtml | alternative-scraper.js:36-67 | The HTML extraction yields no business for any input. |
| Alternative.CreateSampleData | alternative-scraper.js:70-93 | There are three sample records, none with e-mails, and only the last without a website. |
| Alternative.EnrichOne | alternative-scraper.js:119-146 | Name, number and website are preserved. No website gives no e-mails and no request. A failed request gives no e-mails and leaves only the request in the trace. A successful request is followed by exactly one 1-second pause. |
| Alternative.EnrichRecords | alternative-scraper.js:117-149 | There is one record per sample, in order, each differing at most in its e-mails. The trace is the records' own passes, one after another. So exactly the non-empty websites are requested, in order, and there is one pause per website that loaded. |
| Alternative.Scrape | alternative-scraper.js:96-155 | After the local-search request, the result is always the enriched sample data. |
| Alternative.SampleEnrichTrace | alternative-scraper.js:117-146 | Enriching the sample data requests the two sample websites in order, each followed by a 1-second pause only when it loaded. |
| Alternative.SampleTrace | alternative-scraper.js:96-146 | The sample run's trace is the local-search request, then each sample website's request with a 1-second pause only when it loaded. |
| Alternative.SampleRequests | alternative-scraper.js:70-149 | With the sample data, exactly the two non-empty websites are requested, and the third record has no e-mails. |
| Ranking.Insert | debug-addresses.js:55 | Inserting into a longest-first list keeps it longest first and adds exactly the one entry. |
| Ranking.SortByLength | debug-addresses.js:55 | The sorted copy is a permutation of the candidates in non-increasing length order. |
| Ranking.Selected | debug-addresses.js:56 | The selection is one of the candidates and at least as long as each of them. |
| Ranking.InsertOfLength | debug-addresses.js:55 | Insertion keeps the entries of each length in order, with the new one ahead of its equals. |
| Ranking.SortIsStable | debug-addresses.js:55 | For every length, the candidates of that length keep their extraction order. |
| Ranking.SelectedIsFirstLongest | debug-addresses.js:53-56 | The selection is the first candidate of maximal length. |
| Addresses.ToOccurrence | debug-addresses.js:72 | The captured text is whitespace-normalized and keeps every non-whitespace character of the capture, in order. Already normalized text is kept unchanged. Index and full match are copied. |
| Addresses.Slice | debug-addresses.js:83 | Within bounds, `slice` is the substring. An end past the text is cut to its length. A reversed range or a start at or past the end gives the empty string. It is never longer than the text. |
| Addresses.ContextWindow | debug-addresses.js:81-82 | The window starts at or before the match and ends within the text. Each side is 200 characters or cut at the text's end. A match inside the text ends inside the window. |
| Addresses.Snippet | debug-addresses.js:81-83 | A match inside the text occurs in its snippet, with at most 200 characters on each side. |
| Addresses.FindUnused | debug-addresses.js:77 | It returns the first occurrence capturing the address that is not used yet. It returns none only when there is none. |
| Addresses.UsedBeforeAppend | debug-addresses.js:80 | A later report does not change which occurrences earlier ranks used. |
| Addresses.SkipStep | debug-addresses.js:76-78 | A candidate without an available occurrence keeps the pairing invariant and gets no report. |
| Addresses.TakeStep | debug-addresses.js:77-80 | Taking the first available occurrence keeps the pairing invariant. |
| Addresses.TakeStepUsed | debug-addresses.js:77-80 | After a report, the used set holds exactly the occurrences some rank up to this one took. |
| Addresses.TakeStepFirst | debug-addresses.js:77-80 | Taking the first available occurrence keeps "each report took the first unused occurrence". |
| Addresses.TakeStepExhausted | debug-addresses.js:76-80 | After a report, every unreported earlier candidate still has all its occurrences taken. |
| Addresses.TakeStepPaired | debug-addresses.js:77-80 | The new report pairs the candidate with an unused occurrence that captures it. |
| Addresses.PairContexts | debug-addresses.js:75-89 | Each report pairs a candidate with an occurrence capturing exactly it and shows that snippet. Ranks increase, and no occurrence is paired twice. Each report took the first occurrence not used by an earlier rank. An unreported candidate had every occurrence of it taken by earlier ranks. |
| Addresses.InspectCandidates | debug-addresses.js:53-89 | No candidates give no selection. Otherwise the selection is the first candidate of maximal length. The sorted copy is a longest-first permutation that keeps candidates of equal length in extraction order. At most ten candidates are reported, paired as above. |

## Left out

- Network I/O. The mapping-service lookup, website fetches and `axios.get` are parameters returning
  `Loaded(content)` or `Failed`. Headers, timeouts and the response type are not modelled.
- The `utils` and `index.js` helpers are not part of this model. They are uninterpreted total
  functions: phone, name, part, website and e-mail extraction, social-media filtering, duplicate
  removal and `extractAdresse`. A lookup that throws (run.js:23) is a `Failed` fetch, which
  yields no record, as the catch at run.js:175-179 does. A throw from one of the helpers is not
  modelled.
- A website fetch that returns nothing without throwing is `Loaded("")`. Its text reaches the
  e-mail extraction as `''`, where the code passes `null` or `undefined`; what `extractEmails`
  does with those is not modelled here.
- `wait` is an event in the trace. Real time is not modelled.
- Query.FoldAscii: folds ASCII letters only. JavaScript's `i` flag also folds other letters, which
  makes no difference for the all-ASCII city names.
- Query.CityRemovedFromType: holds for a one-word city only. A city of several words can reappear
  once the gaps are collapsed: removing "a b" from "a a b b" leaves "a  b", which collapses to
  "a b".
- Query.ParseWithRemovesCity: covers one-word cities only, for the same reason.
- Query.ParseIntendedRemovesCity: covers one-word cities only, for the same reason.
- `toLowerCase` is modelled for ASCII and Latin-1 letters only. Other scripts are left unchanged.
- Lengths are counted in code points. JavaScript counts UTF-16 units, which differ for
  characters outside the Basic Multilingual Plane; this affects term scores, candidate lengths,
  the match index and the 200-character snippet window (debug-addresses.js:81-83).
- Console output is not modelled: `displayResults`, and all logging with its truncation and
  percentages.
- File and command-line plumbing is not modelled: `saveResults`, `main` and argument parsing in
  run.js, and the `--file` reading and HTML saving in debug-addresses.js.
- The four-part address regular expression of debug-addresses.js:68 is not modelled. Its matches
  are an input sequence of `(index, full match, capture)`. The patterns of
  `extractBusinessDataFromHtml` only log, and are not modelled either.
- Batch.ScrapeBusinesses: `maxResults` is an integer. `NaN` and fractional values from `parseInt`
  are not modelled, and neither are the default parameter values.
- Batch.ScrapeBusinesses: the error result carries no trace, and the rethrow at run.js:268-271 is
  not modelled.
- Alternative.Scrape: the outer catch at alternative-scraper.js:151-154 is not modelled, because
  nothing in the loop can throw once the fetch failures are caught.
- debug-emails.js, example.js and test.js are not part of this model. They only log or wrap a
  scraper that is not modelled here.

## Findings

| source | as written | input that shows it | evidently intended | confidence | as-written member | corrected member |
|---|---|---|---|---|---|---|
| run.js:366-382 | The listed cities are looked up among the whitespace-split words of the query. The multi-word entries "beni mellal", "el jadida" and "ksar el kebir" therefore never equal a word. | "dentiste beni mellal" gives location "fes" and business type "dentiste beni mellal". | The city is detected the way it is removed, as a whole-word, case-insensitive match, so "dentiste beni mellal" gives location "beni mellal" and business type "dentiste". | high; not executed | Query.SpacedCityNeverChosen | Query.ParseQueryIntended |

=== FILE: addresses.dfy ===
/**
  The context report of debug-addresses.js: the matches of the four-part
  address regular expression become occurrences with a whitespace-normalized
  capture, and each of the ten longest candidates is paired with the first
  unused occurrence whose capture equals it, whose surroundings are shown.
*/
module Addresses {
  import opened Strings
  import opened Outcomes
  import opened Ranking

  /** Characters of context shown on each side of a match. */
  const Context: nat := 200

  /** Candidates whose context is shown. */
  const ReportLimit: nat := 10

  /** One match of the address expression: where it starts, the matched text,
      and the text of its capture group. */
  datatype RegexMatch = RegexMatch(index: nat, full: string, group: string)

  /** `{ index, full, captured }`, the capture with whitespace runs made
      single spaces and the ends trimmed. */
  datatype Occurrence = Occurrence(index: nat, full: string, captured: string)

  function ToOccurrence(m: RegexMatch): (o: Occurrence)
    ensures o.index == m.index && o.full == m.full
    ensures Normalized(o.captured)
    ensures Visible(o.captured) == Visible(m.group)
    ensures Normalized(m.group) ==> o.captured == m.group
  {
    Occurrence(m.index, m.full, Normalize(m.group))
  }

  function ToOccurrences(ms: seq<RegexMatch>): (os: seq<Occurrence>)
    ensures |os| == |ms|
    ensures forall i :: 0 <= i < |ms| ==> os[i] == ToOccurrence(ms[i])
  {
    seq(|ms|, i requires 0 <= i < |ms| => ToOccurrence(ms[i]))
  }

  // ---------------------------------------------------------------------
  // Snippet windows
  // ---------------------------------------------------------------------

  /** `html.slice(start, end)` for non-negative bounds: both are clamped to
      the length and a reversed range is empty. */
  function Slice(s: string, start: nat, end: nat): (r: string)
    ensures start <= end <= |s| ==> r == s[start..end]
    ensures start <= |s| < end ==> r == s[start..]
    ensures end <= start || |s| <= start ==> r == ""
    ensures |r| <= |s|
  {
    var a := if start < |s| then start else |s|;
    var b := if end < |s| then end else |s|;
    if a < b then s[a..b] else ""
  }

  lemma SliceOfSlice(s: string, a: nat, b: nat, c: nat, d: nat)
    requires a <= b <= |s| && c <= d <= b - a
    ensures s[a..b][c..d] == s[a + c..a + d]
  {
    assert forall t :: 0 <= t < d - c ==> s[a..b][c..d][t] == s[a + c + t];
  }

  datatype Window = Window(start: nat, end: nat)

  /** The context window of an occurrence: `Context` characters on each side,
      cut off at both ends of the text. */
  function ContextWindow(textLength: nat, occ: Occurrence): (w: Window)
    ensures w.start <= occ.index && w.end <= textLength
    ensures w.start == 0 || w.start == occ.index - Context
    ensures w.end == textLength || w.end == occ.index + |occ.full| + Context
    ensures occ.index - w.start <= Context
    ensures occ.index + |occ.full| <= textLength ==> occ.index + |occ.full| <= w.end
  {
    var start := if occ.index < Context then 0 else occ.index - Context;
    var stop := occ.index + |occ.full| + Context;
    Window(start, if stop < textLength then stop else textLength)
  }

  /** The snippet shown for an occurrence. When the match lies within the
      text, the snippet contains it, with at most `Context` characters on
      either side. */
  function Snippet(html: string, occ: Occurrence): (r: string)
    ensures |r| <= |html|
    ensures occ.index + |occ.full| <= |html| ==>
      var w := ContextWindow(|html|, occ);
      && OccursAt(r, html[occ.index..occ.index + |occ.full|], occ.index - w.start)
      && |r| <= |occ.full| + 2 * Context
  {
    var w := ContextWindow(|html|, occ);
    var r := Slice(html, w.start, w.end);
    assert occ.index + |occ.full| <= |html| ==>
      OccursAt(r, html[occ.index..occ.index + |occ.full|], occ.index - w.start) by {
      if occ.index + |occ.full| <= |html| {
        assert r == html[w.start..w.end];
        SliceOfSlice(html, w.start, w.end, occ.index - w.start, occ.index - w.start + |occ.full|);
      }
    }
    r
  }

  // ---------------------------------------------------------------------
  // Pairing candidates with occurrences
  // ---------------------------------------------------------------------

  /** Occurrence `j` can serve `address`: same capture, not yet used. */
  predicate Available(occs: seq<Occurrence>, address: string, used: set<nat>, j: nat)
    requires j < |occs|
  {
    occs[j].captured == address && j !in used
  }

  /** `occurrences.findIndex(o => o.captured === addr && !used.has(o))`
      from index `i` on. */
  function FindUnused(occs: seq<Occurrence>, address: string, used: set<nat>, i: nat): (k: Option<nat>)
    requires i <= |occs|
    ensures k.Some? ==> i <= k.value < |occs| && Available(occs, address, used, k.value)
    ensures k.Some? ==> forall j :: i <= j < k.value ==> !Available(occs, address, used, j)
    ensures k.None? ==> forall j :: i <= j < |occs| ==> !Available(occs, address, used, j)
    decreases |occs| - i
  {
    if i == |occs| then None
    else if Available(occs, address, used, i) then Some(i)
    else FindUnused(occs, address, used, i + 1)
  }

  /** A shown context: the candidate's rank in the list, the candidate, the
      index of the occurrence paired with it, and the snippet. */
  datatype Report = Report(rank: nat, address: string, occurrence: nat, snippet: string)

  /** Some report has rank `k`. */
  ghost predicate Reported(reports: seq<Report>, k: nat) {
    exists n :: 0 <= n < |reports| && reports[n].rank == k
  }

  /** Occurrence `j` was paired with a candidate of rank below `k`. */
  ghost predicate UsedBefore(reports: seq<Report>, k: nat, j: nat) {
    exists n :: 0 <= n < |reports| && reports[n].rank < k && reports[n].occurrence == j
  }

  /** The reports are well formed for `addresses` and `occs`: each pairs a
      candidate with an occurrence capturing exactly it and shows that
      occurrence's snippet; ranks increase; no occurrence is paired twice. */
  ghost predicate Paired(html: string, addresses: seq<string>, occs: seq<Occurrence>, reports: seq<Report>) {
    && (forall n :: 0 <= n < |reports| ==>
          && reports[n].rank < |addresses|
          && reports[n].address == addresses[reports[n].rank]
          && reports[n].occurrence < |occs|
          && occs[reports[n].occurrence].captured == reports[n].address
          && reports[n].snippet == Snippet(html, occs[reports[n].occurrence]))
    && (forall n, m :: 0 <= n < m < |reports| ==> reports[n].rank < reports[m].rank)
    && (forall n, m :: 0 <= n < m < |reports| ==> reports[n].occurrence != reports[m].occurrence)
  }

  /** Each report took the first occurrence not used by an earlier rank. */
  ghost predicate FirstUnused(occs: seq<Occurrence>, reports: seq<Report>) {
    forall n, j :: (0 <= n < |reports| && 0 <= j < reports[n].occurrence && j < |occs|
                    && occs[j].captured == reports[n].address)
                   ==> UsedBefore(reports, reports[n].rank, j)
  }

  /** A candidate of rank below `limit` without report had every occurrence
      capturing it already paired with an earlier rank. */
  ghost predicate Exhausted(addresses: seq<string>, occs: seq<Occurrence>, reports: seq<Report>, limit: nat) {
    forall k, j :: (0 <= k < limit && k < |addresses| && !Reported(reports, k) && 0 <= j < |occs|
                    && occs[j].captured == addresses[k])
                   ==> UsedBefore(reports, k, j)
  }

  /** Appending a report of rank `k` changes nothing about ranks up to `k`. */
  lemma UsedBeforeAppend(reports: seq<Report>, r: Report, k: nat, j: nat)
    requires k <= r.rank
    ensures UsedBefore(reports + [r], k, j) <==> UsedBefore(reports, k, j)
  {
    if UsedBefore(reports + [r], k, j) {
      var n :| 0 <= n < |reports + [r]| && (reports + [r])[n].rank < k && (reports + [r])[n].occurrence == j;
      assert n < |reports| && reports[n] == (reports + [r])[n];
    }
    if UsedBefore(reports, k, j) {
      var n :| 0 <= n < |reports| && reports[n].rank < k && reports[n].occurrence == j;
      assert (reports + [r])[n] == reports[n];
    }
  }

  /** What the loop knows after the first `idx` candidates, with `used` the
      set of occurrences taken so far. */
  ghost predicate PairingInvariant(html: string, addresses: seq<string>, occs: seq<Occurrence>,
                                   reports: seq<Report>, used: set<nat>, idx: nat) {
    && idx <= |addresses|
    && Paired(html, addresses, occs, reports)
    && |reports| <= idx
    && (forall n :: 0 <= n < |reports| ==> reports[n].rank < idx)
    && (forall j :: 0 <= j < |occs| ==> (j in used <==> UsedBefore(reports, idx, j)))
    && FirstUnused(occs, reports)
    && Exhausted(addresses, occs, reports, idx)
  }

  /** A candidate with no available occurrence gets no report. */
  lemma SkipStep(html: string, addresses: seq<string>, occs: seq<Occurrence>,
                 reports: seq<Report>, used: set<nat>, idx: nat)
    requires PairingInvariant(html, addresses, occs, reports, used, idx)
    requires idx < |addresses|
    requires forall j :: 0 <= j < |occs| ==> !Available(occs, addresses[idx], used, j)
    ensures PairingInvariant(html, addresses, occs, reports, used, idx + 1)
  {
    assert !Reported(reports, idx);
    forall j | 0 <= j < |occs|
      ensures j in used <==> UsedBefore(reports, idx + 1, j)
    {
      if UsedBefore(reports, idx + 1, j) {
        var n :| 0 <= n < |reports| && reports[n].rank < idx + 1 && reports[n].occurrence == j;
        assert reports[n].rank < idx;
      }
    }
    forall k, j | 0 <= k < idx + 1 && k < |addresses| && !Reported(reports, k) && 0 <= j < |occs|
                  && occs[j].captured == addresses[k]
      ensures UsedBefore(reports, k, j)
    {
      if k == idx {
        assert !Available(occs, addresses[idx], used, j);
      }
    }
  }

  /** The report for the candidate at `idx`, paired with occurrence `k`. */
  function ReportFor(html: string, addresses: seq<string>, occs: seq<Occurrence>, idx: nat, k: nat): (r: Report)
    requires idx < |addresses| && k < |occs|
    ensures r.rank == idx && r.address == addresses[idx] && r.occurrence == k
    ensures r.snippet == Snippet(html, occs[k])
  {
    Report(idx, addresses[idx], k, Snippet(html, occs[k]))
  }

  /** Appending the report of the first available occurrence keeps the
      reports well formed. */
  lemma TakeStepPaired(html: string, addresses: seq<string>, occs: seq<Occurrence>,
                       reports: seq<Report>, used: set<nat>, idx: nat, k: nat)
    requires PairingInvariant(html, addresses, occs, reports, used, idx)
    requires idx < |addresses| && k < |occs| && Available(occs, addresses[idx], used, k)
    ensures Paired(html, addresses, occs, reports + [ReportFor(html, addresses, occs, idx, k)])
  {
    var next := reports + [ReportFor(html, addresses, occs, idx, k)];
    assert forall n :: 0 <= n < |reports| ==> next[n] == reports[n];
    forall n | 0 <= n < |reports|
      ensures reports[n].occurrence != k
    {
      assert UsedBefore(reports, idx, reports[n].occurrence);
    }
  }

  /** After taking occurrence `k`, the used set is still what the earlier
      ranks took. */
  lemma TakeStepUsed(html: string, addresses: seq<string>, occs: seq<Occurrence>,
                     reports: seq<Report>, used: set<nat>, idx: nat, k: nat)
    requires PairingInvariant(html, addresses, occs, reports, used, idx)
    requires idx < |addresses| && k < |occs|
    ensures var next := reports + [ReportFor(html, addresses, occs, idx, k)];
            forall j :: 0 <= j < |occs| ==> (j in used + {k} <==> UsedBefore(next, idx + 1, j))
  {
    var next := reports + [ReportFor(html, addresses, occs, idx, k)];
    assert forall n :: 0 <= n < |reports| ==> next[n] == reports[n];
    forall j | 0 <= j < |occs|
      ensures UsedBefore(next, idx + 1, j) <==> (j in used + {k})
    {
      if j == k {
        assert next[|reports|].rank < idx + 1 && next[|reports|].occurrence == j;
      }
      if UsedBefore(next, idx + 1, j) && j != k {
        var n :| 0 <= n < |next| && next[n].rank < idx + 1 && next[n].occurrence == j;
        assert n < |reports|;
        assert UsedBefore(reports, idx, j);
      }
      if j in used {
        var n :| 0 <= n < |reports| && reports[n].rank < idx && reports[n].occurrence == j;
        assert next[n] == reports[n];
      }
    }
  }

  /** After taking the first available occurrence `k`, every report still
      took the first occurrence its rank could use. */
  lemma TakeStepFirst(html: string, addresses: seq<string>, occs: seq<Occurrence>,
                      reports: seq<Report>, used: set<nat>, idx: nat, k: nat)
    requires PairingInvariant(html, addresses, occs, reports, used, idx)
    requires idx < |addresses| && k < |occs|
    requires forall j :: 0 <= j < k ==> !Available(occs, addresses[idx], used, j)
    ensures FirstUnused(occs, reports + [ReportFor(html, addresses, occs, idx, k)])
  {
    var r := ReportFor(html, addresses, occs, idx, k);
    var next := reports + [r];
    assert forall n :: 0 <= n < |reports| ==> next[n] == reports[n];
    forall n, j | 0 <= n < |next| && 0 <= j < next[n].occurrence && j < |occs|
                  && occs[j].captured == next[n].address
      ensures UsedBefore(next, next[n].rank, j)
    {
      UsedBeforeAppend(reports, r, next[n].rank, j);
      if n == |reports| {
        assert !Available(occs, addresses[idx], used, j);
      }
    }
  }

  /** After taking occurrence `k` for rank `idx`, every unreported rank up to
      `idx` still had its occurrences taken by earlier ranks. */
  lemma TakeStepExhausted(html: string, addresses: seq<string>, occs: seq<Occurrence>,
                          reports: seq<Report>, used: set<nat>, idx: nat, k: nat)
    requires PairingInvariant(html, addresses, occs, reports, used, idx)
    requires idx < |addresses| && k < |occs|
    ensures Exhausted(addresses, occs, reports + [ReportFor(html, addresses, occs, idx, k)], idx + 1)
  {
    var r := ReportFor(html, addresses, occs, idx, k);
    var next := reports + [r];
    forall k', j | 0 <= k' < idx + 1 && k' < |addresses| && !Reported(next, k') && 0 <= j < |occs|
                   && occs[j].captured == addresses[k']
      ensures UsedBefore(next, k', j)
    {
      assert k' != idx by {
        assert next[|reports|].rank == idx;
      }
      assert !Reported(reports, k') by {
        forall n | 0 <= n < |reports|
          ensures reports[n].rank != k'
        {
          assert next[n] == reports[n];
        }
      }
      UsedBeforeAppend(reports, r, k', j);
    }
  }

  /** Appending the report of the first available occurrence keeps the loop
      invariant. */
  lemma TakeStep(html: string, addresses: seq<string>, occs: seq<Occurrence>,
                 reports: seq<Report>, used: set<nat>, idx: nat, k: nat)
    requires PairingInvariant(html, addresses, occs, reports, used, idx)
    requires idx < |addresses| && k < |occs| && Available(occs, addresses[idx], used, k)
    requires forall j :: 0 <= j < k ==> !Available(occs, addresses[idx], used, j)
    ensures PairingInvariant(html, addresses, occs, reports + [ReportFor(html, addresses, occs, idx, k)], used + {k}, idx + 1)
  {
    var next := reports + [ReportFor(html, addresses, occs, idx, k)];
    TakeStepPaired(html, addresses, occs, reports, used, idx, k);
    TakeStepUsed(html, addresses, occs, reports, used, idx, k);
    TakeStepFirst(html, addresses, occs, reports, used, idx, k);
    TakeStepExhausted(html, addresses, occs, reports, used, idx, k);
    assert forall n :: 0 <= n < |reports| ==> next[n] == reports[n];
  }

  /** The `forEach` over the candidates: each is paired with the first
      occurrence capturing it that no earlier candidate took. */
  method PairContexts(html: string, addresses: seq<string>, occs: seq<Occurrence>) returns (reports: seq<Report>)
    ensures Paired(html, addresses, occs, reports)
    ensures |reports| <= |addresses|
    ensures FirstUnused(occs, reports)
    ensures Exhausted(addresses, occs, reports, |addresses|)
  {
    reports := [];
    var used: set<nat> := {};
    var idx: nat := 0;
    while idx < |addresses|
      invariant PairingInvariant(html, addresses, occs, reports, used, idx)
      decreases |addresses| - idx
    {
      var found := FindUnused(occs, addresses[idx], used, 0);
      if found.None? {
        SkipStep(html, addresses, occs, reports, used, idx);
      } else {
        var k := found.value;
        TakeStep(html, addresses, occs, reports, used, idx, k);
        reports := reports + [ReportFor(html, addresses, occs, idx, k)];
        used := used + {k};
      }
      idx := idx + 1;
    }
  }

  /** What the debugging run reports for a text, its address candidates and
      the matches of the address expression. */
  datatype Inspection = Inspection(selected: Option<string>, sorted: seq<string>, reports: seq<Report>)

  /** The candidate inspection: nothing when there are no candidates;
      otherwise the longest-first copy, its head as the selection, and the
      contexts of its first `ReportLimit` entries. */
  method InspectCandidates(html: string, candidates: seq<string>, matches: seq<RegexMatch>) returns (r: Inspection)
    ensures r.selected.None? <==> |candidates| == 0
    ensures |candidates| == 0 ==> r == Inspection(None, [], [])
    ensures r.selected.Some? ==>
      && r.selected.value in candidates
      && (forall j :: 0 <= j < |candidates| ==> |candidates[j]| <= |r.selected.value|)
    ensures multiset(r.sorted) == multiset(candidates) && LongestFirst(r.sorted)
    ensures forall n: nat :: OfLength(r.sorted, n) == OfLength(candidates, n)
    ensures |candidates| > 0 ==> r.sorted == SortByLength(candidates) && r.selected == Some(Selected(candidates))
    ensures |candidates| > 0 ==> exists k :: IsFirstLongest(candidates, k) && r.selected == Some(candidates[k])
    ensures |r.reports| <= ReportLimit
    ensures var shown := r.sorted[..if |r.sorted| < ReportLimit then |r.sorted| else ReportLimit];
            && Paired(html, shown, ToOccurrences(matches), r.reports)
            && FirstUnused(ToOccurrences(matches), r.reports)
            && Exhausted(shown, ToOccurrences(matches), r.reports, |shown|)
  {
    if |candidates| == 0 {
      assert OfLength([], 0) == [] && forall n: nat :: OfLength(candidates, n) == [];
      return Inspection(None, [], []);
    }
    var sorted := SortByLength(candidates);
    forall n: nat
      ensures OfLength(sorted, n) == OfLength(candidates, n)
    {
      SortIsStable(candidates, n);
    }
    SelectedIsFirstLongest(candidates);
    var occs := ToOccurrences(matches);
    var shown := sorted[..if |sorted| < ReportLimit then |sorted| else ReportLimit];
    var reports := PairContexts(html, shown, occs);
    r := Inspection(Some(Selected(candidates)), sorted, reports);
  }
}

=== FILE: alternative.dfy ===
/**
  The alternative scraper (alternative-scraper.js): a local-search page is
  requested, its HTML "extraction" never yields a business, so the scraper
  always falls back to three fixed sample records and enriches each with the
  e-mails found on its website.
*/
module Alternative {
  import opened Strings
  import opened Effects

  /** The query `scrape` and `scrapeGooglePlaces` use when called without one. */
  const DefaultSearchQuery: string := "dentiste+fes"

  const PlacesPrefix: string := "https://www.google.com/search?q="
  const PlacesSuffix: string := "&tbm=lcl&hl=en&gl=ma"

  /** A business record of this scraper (`number` is its phone field). */
  datatype SampleBusiness = SampleBusiness(name: string, number: string, website: string, emails: seq<string>)

  /** The local-search URL for `searchQuery`, which is inserted verbatim. */
  function PlacesUrl(searchQuery: string): (url: string)
    ensures IsPrefix(PlacesPrefix, url) && IsSuffix(PlacesSuffix, url)
    ensures |url| == |PlacesPrefix| + |searchQuery| + |PlacesSuffix|
  {
    PlacesPrefix + searchQuery + PlacesSuffix
  }

  /** The query a local-search URL was built from. */
  function PlacesQuery(url: string): string
    requires |url| >= |PlacesPrefix| + |PlacesSuffix|
  {
    url[|PlacesPrefix|..|url| - |PlacesSuffix|]
  }

  /** `scrapeGooglePlaces`: the page text, or `''` when the request fails. */
  function ScrapeGooglePlaces(searchQuery: string, fetch: string -> FetchOutcome): (r: string)
    ensures fetch(PlacesUrl(searchQuery)).Failed? ==> r == ""
    ensures fetch(PlacesUrl(searchQuery)).Loaded? ==> r == fetch(PlacesUrl(searchQuery)).content
  {
    match fetch(PlacesUrl(searchQuery))
    case Loaded(content) => content
    case Failed => ""
  }

  /** `extractBusinessDataFromHtml`: the patterns are only counted and logged,
      and nothing is ever added to the result. */
  function ExtractBusinessDataFromHtml(html: string): (r: seq<SampleBusiness>)
    ensures |r| == 0
  {
    []
  }

  /** The websites of the first two sample records. */
  const BenaliSite: string := "https://cabinet-benali.ma"
  const ModerneSite: string := "https://dentaire-fes.com"

  /** `createSampleData`: three fixed records, the last without a website, all
      without e-mails. */
  function CreateSampleData(): (r: seq<SampleBusiness>)
    ensures |r| == 3
    ensures forall i :: 0 <= i < |r| ==> r[i].emails == []
    ensures r[0].website != "" && r[1].website != "" && r[2].website == ""
    ensures r[0].website == BenaliSite && r[1].website == ModerneSite
  {
    [
      SampleBusiness("Dr. Ahmed Benali - Cabinet Dentaire", "0535-123456", BenaliSite, []),
      SampleBusiness("Centre Dentaire Moderne F\U{E8}s", "0535-234567", ModerneSite, []),
      SampleBusiness("Dr. Fatima Zahra - Orthodontiste", "0661-345678", "", [])
    ]
  }

  /** Records and the fetches and pauses spent on them. */
  datatype Enrichment = Enrichment(records: seq<SampleBusiness>, trace: seq<Event>)

  /** The websites that get requested: the non-empty ones, in order. */
  function Websites(bs: seq<SampleBusiness>): seq<string> {
    if |bs| == 0 then []
    else (if bs[0].website != "" then [bs[0].website] else []) + Websites(bs[1..])
  }

  /** The number of records whose website loads. */
  function LoadedCount(bs: seq<SampleBusiness>, fetch: string -> FetchOutcome): nat {
    if |bs| == 0 then 0
    else (if bs[0].website != "" && fetch(bs[0].website).Loaded? then 1 else 0) + LoadedCount(bs[1..], fetch)
  }

  /** The e-mails one record ends up with. */
  ghost predicate EnrichedFrom(e: SampleBusiness, b: SampleBusiness, fetch: string -> FetchOutcome, extract: string -> seq<string>) {
    && e.name == b.name && e.number == b.number && e.website == b.website
    && (b.website == "" ==> e.emails == [])
    && (b.website != "" && fetch(b.website).Failed? ==> e.emails == [])
    && (b.website != "" && fetch(b.website).Loaded? ==> e.emails == extract(fetch(b.website).content))
  }

  /** One pass of the loop body: an empty website is skipped without a request;
      otherwise the site is fetched, and only a successful fetch is followed by
      the one-second pause, after the request. */
  function EnrichOne(b: SampleBusiness, fetch: string -> FetchOutcome, extract: string -> seq<string>): (e: Enrichment)
    ensures |e.records| == 1 && EnrichedFrom(e.records[0], b, fetch, extract)
    ensures PageUrls(e.trace) == (if b.website != "" then [b.website] else [])
    ensures CountWaits(e.trace, 1) == (if b.website != "" && fetch(b.website).Loaded? then 1 else 0)
    ensures b.website == "" ==> e.trace == []
    ensures b.website != "" && fetch(b.website).Failed? ==> e.trace == [FetchPage(b.website)]
    ensures b.website != "" && fetch(b.website).Loaded? ==> e.trace == [FetchPage(b.website), Wait(1)]
  {
    if b.website == "" then Enrichment([b.(emails := [])], [])
    else
      var request := [FetchPage(b.website)];
      assert request[1..] == [];
      match fetch(b.website)
      case Failed => Enrichment([b.(emails := [])], request)
      case Loaded(content) =>
        var t := [FetchPage(b.website), Wait(1)];
        assert t[1..] == [Wait(1)] && t[1..][1..] == [];
        assert PageUrls(t[1..][1..]) == [] && CountWaits(t[1..][1..], 1) == 0;
        assert PageUrls(t[1..]) == [] && CountWaits(t[1..], 1) == 1;
        Enrichment([b.(emails := extract(content))], t)
  }

  /** The trace of each record's own pass, in order. */
  function Passes(bs: seq<SampleBusiness>, fetch: string -> FetchOutcome, extract: string -> seq<string>): (ts: seq<seq<Event>>)
    ensures |ts| == |bs|
  {
    seq(|bs|, i requires 0 <= i < |bs| => EnrichOne(bs[i], fetch, extract).trace)
  }

  /** The first pass followed by the passes of the rest. */
  lemma PassesStep(bs: seq<SampleBusiness>, fetch: string -> FetchOutcome, extract: string -> seq<string>)
    requires |bs| > 0
    ensures Concat(Passes(bs, fetch, extract))
            == EnrichOne(bs[0], fetch, extract).trace + Concat(Passes(bs[1..], fetch, extract))
  {
    var ts := Passes(bs, fetch, extract);
    assert ts[1..] == Passes(bs[1..], fetch, extract);
  }

  /** The first record enriched, followed by the rest enriched. */
  lemma EnrichedStep(bs: seq<SampleBusiness>, first: seq<SampleBusiness>, rest: seq<SampleBusiness>,
                     fetch: string -> FetchOutcome, extract: string -> seq<string>)
    requires |bs| > 0 && |first| == 1 && EnrichedFrom(first[0], bs[0], fetch, extract)
    requires |rest| == |bs| - 1 && forall i :: 0 <= i < |rest| ==> EnrichedFrom(rest[i], bs[1..][i], fetch, extract)
    ensures forall i :: 0 <= i < |bs| ==> EnrichedFrom((first + rest)[i], bs[i], fetch, extract)
  {
    forall i | 1 <= i < |bs|
      ensures EnrichedFrom((first + rest)[i], bs[i], fetch, extract)
    {
      assert (first + rest)[i] == rest[i - 1] && bs[i] == bs[1..][i - 1];
    }
  }

  /** The enrichment loop over `bs`: one output record per input record, in
      order, each differing from its input at most in its e-mails; a failure
      never stops the records after it. The trace is the records' own passes,
      one after another. */
  function EnrichRecords(bs: seq<SampleBusiness>, fetch: string -> FetchOutcome, extract: string -> seq<string>): (e: Enrichment)
    ensures |e.records| == |bs|
    ensures forall i :: 0 <= i < |bs| ==> EnrichedFrom(e.records[i], bs[i], fetch, extract)
    ensures PageUrls(e.trace) == Websites(bs)
    ensures CountWaits(e.trace, 1) == LoadedCount(bs, fetch)
    ensures e.trace == Concat(Passes(bs, fetch, extract))
    decreases |bs|
  {
    if |bs| == 0 then Enrichment([], [])
    else
      var first := EnrichOne(bs[0], fetch, extract);
      var rest := EnrichRecords(bs[1..], fetch, extract);
      var records := first.records + rest.records;
      EnrichedStep(bs, first.records, rest.records, fetch, extract);
      var trace := first.trace + rest.trace;
      assert trace == Concat(Passes(bs, fetch, extract)) by {
        PassesStep(bs, fetch, extract);
      }
      assert PageUrls(trace) == Websites(bs) by {
        PageUrlsAppend(first.trace, rest.trace);
      }
      assert CountWaits(trace, 1) == LoadedCount(bs, fetch) by {
        CountWaitsAppend(first.trace, rest.trace, 1);
      }
      Enrichment(records, first.trace + rest.trace)
  }

  /** `scrape`: the local-search page is requested; since the HTML extraction
      yields nothing, the result is always the enriched sample data. */
  function Scrape(searchQuery: string, fetch: string -> FetchOutcome, extract: string -> seq<string>): (e: Enrichment)
    ensures |e.trace| >= 1 && e.trace[0] == FetchPage(PlacesUrl(searchQuery))
    ensures e.records == EnrichRecords(CreateSampleData(), fetch, extract).records
    ensures e.trace[1..] == EnrichRecords(CreateSampleData(), fetch, extract).trace
  {
    var placesData := ScrapeGooglePlaces(searchQuery, fetch);
    var request := [FetchPage(PlacesUrl(searchQuery))];
    var businesses := if placesData != "" then ExtractBusinessDataFromHtml(placesData) else [];
    if |businesses| > 0 then Enrichment(businesses, request)
    else
      var enriched := EnrichRecords(CreateSampleData(), fetch, extract);
      assert (request + enriched.trace)[1..] == enriched.trace;
      Enrichment(enriched.records, request + enriched.trace)
  }

  // ---------------------------------------------------------------------
  // Lemmas
  // ---------------------------------------------------------------------

  /** The query can be read back from the local-search URL. */
  lemma PlacesQueryOfUrl(searchQuery: string)
    ensures PlacesQuery(PlacesUrl(searchQuery)) == searchQuery
  {
  }

  /** Of the three sample records only the first two are requested, and each
      that loads is followed by one pause. */
  lemma SampleRequests(fetch: string -> FetchOutcome, extract: string -> seq<string>)
    ensures var e := Scrape(DefaultSearchQuery, fetch, extract);
            && |e.records| == 3
            && e.records[2].emails == []
            && PageUrls(e.trace[1..]) == [BenaliSite, ModerneSite]
  {
    var s := CreateSampleData();
    assert s[1..][1..][1..] == [];
    assert Websites(s[1..][1..]) == [];
    assert Websites(s[1..]) == [ModerneSite];
  }

  /** A website's pass: its request, then a one-second pause only when it loaded. */
  lemma VisitTrace(b: SampleBusiness, fetch: string -> FetchOutcome, extract: string -> seq<string>)
    requires b.website != ""
    ensures EnrichOne(b, fetch, extract).trace
            == [FetchPage(b.website)] + (if fetch(b.website).Loaded? then [Wait(1)] else [])
  {
  }

  /** Three records, the last without a website: the trace is the first two
      passes. */
  lemma ThreePasses(bs: seq<SampleBusiness>, fetch: string -> FetchOutcome, extract: string -> seq<string>)
    requires |bs| == 3 && bs[2].website == ""
    ensures EnrichRecords(bs, fetch, extract).trace
            == EnrichOne(bs[0], fetch, extract).trace + EnrichOne(bs[1], fetch, extract).trace
  {
    var e1 := EnrichOne(bs[1], fetch, extract).trace;
    assert Concat(Passes(bs[1..][1..], fetch, extract)) == [] by {
      PassesStep(bs[1..][1..], fetch, extract);
      assert bs[1..][1..][1..] == [];
    }
    assert Concat(Passes(bs[1..], fetch, extract)) == e1 by {
      PassesStep(bs[1..], fetch, extract);
    }
    PassesStep(bs, fetch, extract);
  }

  /** The enrichment of the sample data: each sample website's request, each
      followed by a one-second pause only when it loaded; the third record
      costs nothing. */
  lemma SampleEnrichTrace(fetch: string -> FetchOutcome, extract: string -> seq<string>)
    ensures var w0, w1 := BenaliSite, ModerneSite;
            EnrichRecords(CreateSampleData(), fetch, extract).trace
            == [FetchPage(w0)] + (if fetch(w0).Loaded? then [Wait(1)] else [])
               + [FetchPage(w1)] + (if fetch(w1).Loaded? then [Wait(1)] else [])
  {
    var s := CreateSampleData();
    var e0, e1 := EnrichOne(s[0], fetch, extract).trace, EnrichOne(s[1], fetch, extract).trace;
    ThreePasses(s, fetch, extract);
    assert e0 == [FetchPage(BenaliSite)] + (if fetch(BenaliSite).Loaded? then [Wait(1)] else []) by {
      VisitTrace(s[0], fetch, extract);
    }
    assert e1 == [FetchPage(ModerneSite)] + (if fetch(ModerneSite).Loaded? then [Wait(1)] else []) by {
      VisitTrace(s[1], fetch, extract);
    }
    Regroup([FetchPage(BenaliSite)], if fetch(BenaliSite).Loaded? then [Wait(1)] else [],
            [FetchPage(ModerneSite)], if fetch(ModerneSite).Loaded? then [Wait(1)] else []);
  }

  lemma Regroup(a: seq<Event>, x: seq<Event>, b: seq<Event>, y: seq<Event>)
    ensures (a + x) + (b + y) == a + x + b + y
  {
  }

  /** The sample run in full: the local-search request, then the sample
      enrichment's requests and pauses. */
  lemma SampleTrace(searchQuery: string, fetch: string -> FetchOutcome, extract: string -> seq<string>)
    ensures var w0, w1 := BenaliSite, ModerneSite;
            Scrape(searchQuery, fetch, extract).trace
            == [FetchPage(PlacesUrl(searchQuery)), FetchPage(w0)] + (if fetch(w0).Loaded? then [Wait(1)] else [])
               + [FetchPage(w1)] + (if fetch(w1).Loaded? then [Wait(1)] else [])
  {
    SampleEnrichTrace(fetch, extract);
    var t := Scrape(searchQuery, fetch, extract).trace;
    assert t == [t[0]] + t[1..];
  }
}

=== FILE: batch.dfy ===
/**
  `scrapeBusinesses` (run.js): one discovery lookup for the business type,
  then an individual search for each discovered name, in order, with a
  two-second pause between consecutive searches.
*/
module Batch {
  import opened Outcomes
  import opened Effects
  import opened Query
  import opened Business

  /** `names.slice(0, maxResults)`: a negative end counts from the back and
      an end past the length stops at the length. */
  function TakeFirst(names: seq<string>, maxResults: int): (r: seq<string>)
    ensures |r| <= |names| && r == names[..|r|]
    ensures maxResults >= 0 ==> |r| == if maxResults < |names| then maxResults else |names|
    ensures maxResults < 0 ==> |r| == if |names| + maxResults > 0 then |names| + maxResults else 0
  {
    var end := if maxResults < 0 then |names| + maxResults else maxResults;
    if end <= 0 then []
    else if end >= |names| then names
    else names[..end]
  }

  /** The individual search of every name, as if each ran on its own. */
  function Attempts(names: seq<string>, location: string, net: Network, ex: Extractors): (a: seq<Option<BusinessRecord>>)
    ensures |a| == |names|
  {
    if |names| == 0 then []
    else [SearchIndividualBusiness(names[0], location, net, ex).record] + Attempts(names[1..], location, net, ex)
  }

  /** The present records of `rs`, in order: `if (businessData) results.push(businessData)`. */
  function Present(rs: seq<Option<BusinessRecord>>): seq<BusinessRecord> {
    if |rs| == 0 then []
    else (if rs[0].Some? then [rs[0].value] else []) + Present(rs[1..])
  }

  /** The lookup strings of the individual searches, in order. */
  function Lookups(names: seq<string>, location: string): (qs: seq<string>)
    ensures |qs| == |names|
  {
    if |names| == 0 then [] else [LookupQuery(names[0], location)] + Lookups(names[1..], location)
  }

  /** The trace of each name's individual search, as if each ran on its own. */
  function SearchTraces(names: seq<string>, location: string, net: Network, ex: Extractors): (ts: seq<seq<Event>>)
    ensures |ts| == |names|
  {
    if |names| == 0 then []
    else [SearchIndividualBusiness(names[0], location, net, ex).trace] + SearchTraces(names[1..], location, net, ex)
  }

  /** The first search's trace, the pause when more names follow, then the
      rest of the batch separated in the same way. */
  lemma SearchTracesStep(names: seq<string>, location: string, net: Network, ex: Extractors, pause: seq<Event>, rest: seq<Event>)
    requires |names| > 0 && pause == if |names| > 1 then [Wait(2)] else []
    requires rest == Separated(SearchTraces(names[1..], location, net, ex), Wait(2))
    ensures SearchIndividualBusiness(names[0], location, net, ex).trace + pause + rest
            == Separated(SearchTraces(names, location, net, ex), Wait(2))
  {
    var ts := SearchTraces(names, location, net, ex);
    assert ts[0] == SearchIndividualBusiness(names[0], location, net, ex).trace;
    assert ts[1..] == SearchTraces(names[1..], location, net, ex);
    SeparatedStep(ts, Wait(2));
  }

  /** The records a batch kept and everything it fetched and waited for. */
  datatype BatchRun = BatchRun(records: seq<BusinessRecord>, trace: seq<Event>)

  /** The loop over the selected names: each is searched, a found record is
      kept, and a two-second pause separates one search from the next. The
      kept records are exactly the present results of the individual searches,
      in input order. The trace is the individual searches' traces in input
      order with one two-second pause between consecutive ones: one lookup per
      name, in order, and one pause fewer than there are names. */
  function SearchAll(names: seq<string>, location: string, net: Network, ex: Extractors): (b: BatchRun)
    ensures b.records == Present(Attempts(names, location, net, ex))
    ensures |b.records| <= |names|
    ensures PayloadQueries(b.trace) == Lookups(names, location)
    ensures CountWaits(b.trace, 2) == if |names| == 0 then 0 else |names| - 1
    ensures b.trace == Separated(SearchTraces(names, location, net, ex), Wait(2))
    decreases |names|
  {
    if |names| == 0 then BatchRun([], [])
    else
      var s := SearchIndividualBusiness(names[0], location, net, ex);
      var pause: seq<Event> := if |names| > 1 then [Wait(2)] else [];
      var rest := SearchAll(names[1..], location, net, ex);
      var kept := if s.record.Some? then [s.record.value] else [];
      JoinTraces(s.trace, pause, rest.trace, |names| > 1);
      SearchTracesStep(names, location, net, ex, pause, rest.trace);
      BatchRun(kept + rest.records, s.trace + pause + rest.trace)
  }

  /** `scrapeBusinesses`: a missing or empty discovery payload is an error; no
      discovered name gives no records; otherwise the first `maxResults` names
      (as `slice` reads it) are searched one after another. */
  function ScrapeBusinesses(businessType: string, location: string, maxResults: int, net: Network, ex: Extractors): (r: Result<BatchRun>)
    ensures r.Err? <==> Payload(net.maps(LookupQuery(businessType, location))).None?
    ensures r.Ok? ==>
      var names := ex.businessNames(net.maps(LookupQuery(businessType, location)).content);
      var selected := TakeFirst(names, maxResults);
      && |r.value.trace| >= 1
      && r.value.trace[0] == FetchPayload(LookupQuery(businessType, location))
      && (|names| == 0 ==> r.value == BatchRun([], [FetchPayload(LookupQuery(businessType, location))]))
      && r.value.records == Present(Attempts(selected, location, net, ex))
      && (maxResults >= 0 ==> |r.value.records| <= maxResults)
      && PayloadQueries(r.value.trace) == [LookupQuery(businessType, location)] + Lookups(selected, location)
      && CountWaits(r.value.trace, 2) == (if |selected| == 0 then 0 else |selected| - 1)
      && r.value.trace == [FetchPayload(LookupQuery(businessType, location))]
                          + Separated(SearchTraces(selected, location, net, ex), Wait(2))
  {
    var query := LookupQuery(businessType, location);
    var discovery := [FetchPayload(query)];
    LookupEvent(query, 2);
    match Payload(net.maps(query))
    case None => Err("No data found from Google Maps")
    case Some(payload) =>
      var names := ex.businessNames(payload);
      if |names| == 0 then Ok(BatchRun([], discovery))
      else
        var b := SearchAll(TakeFirst(names, maxResults), location, net, ex);
        PayloadQueriesAppend(discovery, b.trace);
        CountWaitsAppend(discovery, b.trace, 2);
        Ok(BatchRun(b.records, discovery + b.trace))
  }

  /** Two names: the first search, one two-second pause, then the second
      search; no pause comes before the first or after the last. */
  lemma PauseBetweenTwoSearches(n0: string, n1: string, location: string, net: Network, ex: Extractors)
    ensures SearchAll([n0, n1], location, net, ex).trace
            == SearchIndividualBusiness(n0, location, net, ex).trace + [Wait(2)]
               + SearchIndividualBusiness(n1, location, net, ex).trace
  {
    var ts := SearchTraces([n0, n1], location, net, ex);
    assert ts[1..][1..] == [];
  }

  /** One search's trace, the optional pause after it, and the rest of the batch. */
  lemma JoinTraces(search: seq<Event>, pause: seq<Event>, rest: seq<Event>, more: bool)
    requires pause == if more then [Wait(2)] else []
    ensures PayloadQueries(search + pause + rest) == PayloadQueries(search) + PayloadQueries(rest)
    ensures CountWaits(search + pause + rest, 2) == CountWaits(search, 2) + (if more then 1 else 0) + CountWaits(rest, 2)
  {
    assert PayloadQueries(pause) == [] && CountWaits(pause, 2) == (if more then 1 else 0) by {
      if more {
        assert pause[1..] == [];
      }
    }
    PayloadQueriesAppend(search, pause);
    PayloadQueriesAppend(search + pause, rest);
    CountWaitsAppend(search, pause, 2);
    CountWaitsAppend(search + pause, rest, 2);
  }

  // ---------------------------------------------------------------------
  // Lemmas
  // ---------------------------------------------------------------------

  /** Every kept record is the record of some individual search, and their
      number is the number of searches that found one. */
  lemma {:induction false} PresentIsFilter(rs: seq<Option<BusinessRecord>>)
    ensures |Present(rs)| <= |rs|
    ensures forall r :: r in Present(rs) <==> Some(r) in rs
    decreases |rs|
  {
    if |rs| > 0 {
      PresentIsFilter(rs[1..]);
      assert rs == [rs[0]] + rs[1..];
      forall r | Some(r) in rs
        ensures r in Present(rs)
      {
        if rs[0] != Some(r) {
          assert Some(r) in rs[1..];
        }
      }
    }
  }

  /** Present records are kept in input order: splitting the attempts splits
      the kept records the same way. */
  lemma {:induction false} PresentAppend(a: seq<Option<BusinessRecord>>, b: seq<Option<BusinessRecord>>)
    ensures Present(a + b) == Present(a) + Present(b)
    decreases |a|
  {
    if |a| == 0 {
      assert a + b == b;
    } else {
      var ab := a + b;
      assert ab[0] == a[0] && ab[1..] == a[1..] + b;
      PresentAppend(a[1..], b);
    }
  }

  /** Raising `maxResults` only ever appends records: a smaller batch's
      records are a prefix of a larger batch's. */
  lemma BatchGrowsByAppending(names: seq<string>, m: nat, n: nat, location: string, net: Network, ex: Extractors)
    requires m <= n
    ensures var small := Present(Attempts(TakeFirst(names, m), location, net, ex));
            var large := Present(Attempts(TakeFirst(names, n), location, net, ex));
            |small| <= |large| && small == large[..|small|]
  {
    var s := TakeFirst(names, m);
    var l := TakeFirst(names, n);
    assert s == l[..|s|];
    AttemptsPrefix(l, |s|, location, net, ex);
    PresentPrefix(Attempts(l, location, net, ex), |s|);
  }

  /** The present records of a prefix of the attempts are a prefix of the
      present records of all of them. */
  lemma PresentPrefix(rs: seq<Option<BusinessRecord>>, k: nat)
    requires k <= |rs|
    ensures |Present(rs[..k])| <= |Present(rs)|
    ensures Present(rs[..k]) == Present(rs)[..|Present(rs[..k])|]
  {
    assert rs == rs[..k] + rs[k..];
    PresentAppend(rs[..k], rs[k..]);
  }

  /** Searching a prefix of the names gives the same prefix of the attempts. */
  lemma AttemptsPrefix(names: seq<string>, k: nat, location: string, net: Network, ex: Extractors)
    requires k <= |names|
    ensures Attempts(names[..k], location, net, ex) == Attempts(names, location, net, ex)[..k]
  {
    var p := Attempts(names[..k], location, net, ex);
    var q := Attempts(names, location, net, ex);
    forall i | 0 <= i < k
      ensures p[i] == q[i]
    {
      AttemptsAt(names[..k], location, net, ex, i);
      AttemptsAt(names, location, net, ex, i);
    }
  }

  /** Entry `i` of the attempts is the individual search of name `i`. */
  lemma {:induction false} AttemptsAt(names: seq<string>, location: string, net: Network, ex: Extractors, i: nat)
    requires i < |names|
    ensures Attempts(names, location, net, ex)[i] == SearchIndividualBusiness(names[i], location, net, ex).record
    decreases i
  {
    if i > 0 {
      AttemptsAt(names[1..], location, net, ex, i - 1);
    }
  }
}

=== FILE: business.dfy ===
/**
  `searchIndividualBusiness` (run.js): look one business up on the mapping
  service and assemble its record from the payload — reconciled name, first
  phone number, first website, and the e-mails of that website.
*/
module Business {
  import opened Outcomes
  import opened Strings
  import opened Effects
  import opened Query
  import opened NameMatch
  import opened Emails

  /** The record of one business, with the fields of the saved results. */
  datatype BusinessRecord = BusinessRecord(
    name: string,
    phone: string,
    website: string,
    emails: seq<string>,
    location: string)

  /** The extraction helpers of the `utils` module, whose bodies are not part
      of this model: each is an arbitrary total function here. */
  datatype Extractors = Extractors(
    phoneNumbers: string -> seq<string>,          // extractPhoneNumbers(payload)
    businessNames: string -> seq<string>,         // extractBusinessNames(payload)
    mapsParts: string -> seq<string>,             // extractGoogleMapsParts(payload)
    filterSocialMedia: seq<string> -> seq<string>, // filterSocialMediaParts(parts)
    websites: (seq<string>, string) -> seq<string>, // extractWebsites(parts, payload)
    removeDuplicates: seq<string> -> seq<string>, // removeDuplicates(list)
    emails: string -> seq<string>)                // extractEmails(page)

  /** The two network capabilities: the mapping-service lookup by query, and
      a website fetch by URL. */
  datatype Network = Network(maps: string -> FetchOutcome, site: string -> FetchOutcome)

  /** The result of one search (`None` is the source's `null`) and its trace. */
  datatype Search = Search(record: Option<BusinessRecord>, trace: seq<Event>)

  /** `xs.length > 0 ? xs[0] : ''`. */
  function FirstOrEmpty(xs: seq<string>): string {
    if |xs| > 0 then xs[0] else ""
  }

  /** The candidate websites of a payload: social-media links filtered out,
      websites extracted, duplicates removed. */
  function Websites(payload: string, ex: Extractors): seq<string> {
    ex.removeDuplicates(ex.websites(ex.filterSocialMedia(ex.mapsParts(payload)), payload))
  }

  /** One business looked up on the mapping service: the lookup comes first,
      it is the only lookup, and the search makes no 2-second pause. The
      search yields no record exactly when the payload is missing or empty;
      what the record holds is stated by `SearchRecord`. */
  function SearchIndividualBusiness(businessName: string, location: string, net: Network, ex: Extractors): (s: Search)
    ensures |s.trace| >= 1 && s.trace[0] == FetchPayload(LookupQuery(businessName, location))
    ensures PayloadQueries(s.trace) == [LookupQuery(businessName, location)]
    ensures CountWaits(s.trace, 2) == 0
    ensures s.record.None? <==> Payload(net.maps(LookupQuery(businessName, location))).None?
  {
    var query := LookupQuery(businessName, location);
    var lookup := [FetchPayload(query)];
    LookupEvent(query, 2);
    match Payload(net.maps(query))
    case None => Search(None, lookup)
    case Some(payload) =>
      var names := ex.businessNames(payload);
      var website := FirstOrEmpty(Websites(payload, ex));
      var chain := EmailChain(website, net.site, ex.emails);
      EmailTraceHasNoLookups(website, net.site, ex.emails);
      PayloadQueriesAppend(lookup, chain.trace);
      CountWaitsAppend(lookup, chain.trace, 2);
      var rec := BusinessRecord(
        ReconcileName(businessName, names),
        FirstOrEmpty(ex.phoneNumbers(payload)),
        website,
        chain.emails,
        location);
      Search(Some(rec), lookup + chain.trace)
  }

  /** The record of a search: with no payload, only the lookup happens;
      otherwise the record carries the reconciled name, the first phone number
      or `''`, the first website or `''`, and the e-mails of that website's
      fallback chain, whose fetches and pauses follow the lookup; the location
      is kept as given, and website failures never drop the record. */
  lemma SearchRecord(businessName: string, location: string, net: Network, ex: Extractors)
    ensures var s := SearchIndividualBusiness(businessName, location, net, ex);
      && (s.record.None? ==> s.trace == [FetchPayload(LookupQuery(businessName, location))])
      && (s.record.Some? ==>
        var payload := net.maps(LookupQuery(businessName, location)).content;
        var names := ex.businessNames(payload);
        var phones := ex.phoneNumbers(payload);
        var sites := Websites(payload, ex);
        var rec := s.record.value;
        && rec.location == location
        && (|names| == 0 ==> rec.name == businessName)
        && (|names| > 0 ==> rec.name in names)
        && rec.name == ReconcileName(businessName, names)
        && (|phones| > 0 ==> rec.phone == phones[0])
        && (|phones| == 0 ==> rec.phone == "")
        && (|sites| > 0 ==> rec.website == sites[0])
        && (|sites| == 0 ==> rec.website == "")
        && Chain(rec.emails, s.trace[1..]) == EmailChain(rec.website, net.site, ex.emails))
  {
    var s := SearchIndividualBusiness(businessName, location, net, ex);
    var query := LookupQuery(businessName, location);
    if s.record.Some? {
      var payload := net.maps(query).content;
      var names := ex.businessNames(payload);
      var chain := EmailChain(FirstOrEmpty(Websites(payload, ex)), net.site, ex.emails);
      assert s.trace == [FetchPayload(query)] + chain.trace;
      assert ([FetchPayload(query)] + chain.trace)[1..] == chain.trace;
      if |names| > 0 {
        var k :| 0 <= k < |names| && s.record.value.name == names[k];
      }
    }
  }

  /** A page step is a one-second pause and a page fetch. */
  lemma PageStepHasNoLookups(url: string)
    ensures PayloadQueries([Wait(1), FetchPage(url)]) == []
    ensures CountWaits([Wait(1), FetchPage(url)], 2) == 0
  {
    var step := [Wait(1), FetchPage(url)];
    assert step[1..] == [FetchPage(url)] && step[1..][1..] == [];
    assert PayloadQueries(step[1..][1..]) == [] && CountWaits(step[1..][1..], 2) == 0;
    assert PayloadQueries(step[1..]) == [] && CountWaits(step[1..], 2) == 0;
  }

  /** The e-mail step only fetches pages and pauses for one second. */
  lemma EmailTraceHasNoLookups(website: string, fetch: string -> FetchOutcome, extract: string -> seq<string>)
    ensures PayloadQueries(EmailChain(website, fetch, extract).trace) == []
    ensures CountWaits(EmailChain(website, fetch, extract).trace, 2) == 0
  {
    var t := EmailChain(website, fetch, extract).trace;
    if website != "" {
      var a := [Wait(1), FetchPage(website)];
      var b := [Wait(1), FetchPage(ContactUrl(website))];
      PageStepHasNoLookups(website);
      PageStepHasNoLookups(ContactUrl(website));
      PayloadQueriesAppend(a, b);
      CountWaitsAppend(a, b, 2);
      assert t == a || t == a + b;
    }
  }
}

=== FILE: effects.dfy ===
/**
  The scraper's contact with the outside world, reduced to data: a fetch
  either loads a text or fails, and every fetch or rate-limiting pause a run
  performs is recorded, in order, as an `Event` of its trace.
*/
module Effects {
  import opened Outcomes

  /** What a network fetch produced: the response text, or `Failed` when the
      call threw (an error or a timeout). A call that returns without a text
      is `Loaded("")`. */
  datatype FetchOutcome = Loaded(content: string) | Failed

  /** One observable step of a run. */
  datatype Event =
    | FetchPayload(query: string)   // the mapping-service lookup for `query`
    | FetchPage(url: string)        // a website request for `url`
    | Wait(seconds: nat)            // a rate-limiting pause

  /** The payload as JavaScript's `if (!data)` test sees it: absent when the
      fetch failed or returned an empty text. */
  function Payload(o: FetchOutcome): (p: Option<string>)
    ensures p.Some? <==> o.Loaded? && o.content != ""
    ensures p.Some? ==> p.value == o.content
  {
    if o.Loaded? && o.content != "" then Some(o.content) else None
  }

  /** Number of pauses of `seconds` seconds in `trace`. */
  function CountWaits(trace: seq<Event>, seconds: nat): nat {
    if |trace| == 0 then 0
    else (if trace[0] == Wait(seconds) then 1 else 0) + CountWaits(trace[1..], seconds)
  }

  /** The lookup queries sent to the mapping service, in order. */
  function PayloadQueries(trace: seq<Event>): seq<string> {
    if |trace| == 0 then []
    else (if trace[0].FetchPayload? then [trace[0].query] else []) + PayloadQueries(trace[1..])
  }

  /** The website URLs requested, in order. */
  function PageUrls(trace: seq<Event>): seq<string> {
    if |trace| == 0 then []
    else (if trace[0].FetchPage? then [trace[0].url] else []) + PageUrls(trace[1..])
  }

  /** The traces `ts`, one after another. */
  function Concat(ts: seq<seq<Event>>): seq<Event> {
    if |ts| == 0 then [] else ts[0] + Concat(ts[1..])
  }

  /** The traces `ts`, one after another, with one `gap` between each two
      consecutive ones and none before the first or after the last. */
  function Separated(ts: seq<seq<Event>>, gap: Event): seq<Event> {
    if |ts| == 0 then []
    else if |ts| == 1 then ts[0]
    else ts[0] + [gap] + Separated(ts[1..], gap)
  }

  /** The first trace, the gap when more follow, then the rest separated. */
  lemma SeparatedStep(ts: seq<seq<Event>>, gap: Event)
    requires |ts| > 0
    ensures Separated(ts, gap) == ts[0] + (if |ts| > 1 then [gap] else []) + Separated(ts[1..], gap)
  {
    if |ts| == 1 {
      assert ts[1..] == [];
    }
  }

  /** Each trace but the last followed by the gap. */
  function Gapped(ts: seq<seq<Event>>, gap: Event): (gs: seq<seq<Event>>)
    ensures |gs| == |ts|
  {
    seq(|ts|, i requires 0 <= i < |ts| => ts[i] + (if i < |ts| - 1 then [gap] else []))
  }

  /** Separating traces is concatenating them after appending the gap to
      every trace except the last. */
  lemma {:induction false} SeparatedIsGappedConcat(ts: seq<seq<Event>>, gap: Event)
    ensures Separated(ts, gap) == Concat(Gapped(ts, gap))
    decreases |ts|
  {
    var gs := Gapped(ts, gap);
    if |ts| == 1 {
      assert gs[0] == ts[0] && gs[1..] == [];
    } else if |ts| > 1 {
      SeparatedIsGappedConcat(ts[1..], gap);
      assert gs[0] == ts[0] + [gap];
      assert gs[1..] == Gapped(ts[1..], gap);
    }
  }

  lemma {:induction false} CountWaitsAppend(a: seq<Event>, b: seq<Event>, seconds: nat)
    ensures CountWaits(a + b, seconds) == CountWaits(a, seconds) + CountWaits(b, seconds)
    decreases |a|
  {
    if |a| == 0 {
      assert a + b == b;
    } else {
      var ab := a + b;
      assert ab[0] == a[0] && ab[1..] == a[1..] + b;
      CountWaitsAppend(a[1..], b, seconds);
    }
  }

  lemma {:induction false} PayloadQueriesAppend(a: seq<Event>, b: seq<Event>)
    ensures PayloadQueries(a + b) == PayloadQueries(a) + PayloadQueries(b)
    decreases |a|
  {
    if |a| == 0 {
      assert a + b == b;
    } else {
      var ab := a + b;
      assert ab[0] == a[0] && ab[1..] == a[1..] + b;
      PayloadQueriesAppend(a[1..], b);
    }
  }

  lemma {:induction false} PageUrlsAppend(a: seq<Event>, b: seq<Event>)
    ensures PageUrls(a + b) == PageUrls(a) + PageUrls(b)
    decreases |a|
  {
    if |a| == 0 {
      assert a + b == b;
    } else {
      var ab := a + b;
      assert ab[0] == a[0] && ab[1..] == a[1..] + b;
      PageUrlsAppend(a[1..], b);
    }
  }

  /** A lone lookup event: one query, no pause, no page. */
  lemma LookupEvent(query: string, seconds: nat)
    ensures PayloadQueries([FetchPayload(query)]) == [query]
    ensures CountWaits([FetchPayload(query)], seconds) == 0
  {
    assert [FetchPayload(query)][1..] == [];
  }
}

=== FILE: emails.dfy ===
/**
  The e-mail step of `searchIndividualBusiness` (run.js): fetch the selected
  website and extract its e-mail addresses; when the main page yields none,
  try the site's contact page. Every fetch comes after a one-second pause, and
  a fetch that throws ends the chain without failing the search.
*/
module Emails {
  import opened Strings
  import opened Outcomes
  import opened Effects

  /** The contact page of a website: "/contact" appended, without doubling a
      trailing slash. */
  function ContactUrl(website: string): (url: string)
    ensures IsPrefix(website, url)
    ensures IsSuffix("/contact", url)
    ensures |url| == |website| + (if IsSuffix("/", website) then 7 else 8)
  {
    if IsSuffix("/", website) then website + "contact" else website + "/contact"
  }

  /** The e-mails one page yields: `None` when its fetch throws. */
  function PageEmails(url: string, fetch: string -> FetchOutcome, extract: string -> seq<string>): Option<seq<string>> {
    match fetch(url)
    case Loaded(content) => Some(extract(content))
    case Failed => None
  }

  /** The e-mails found and the fetches and pauses spent finding them. */
  datatype Chain = Chain(emails: seq<string>, trace: seq<Event>)

  /** A fallback chain given as data: the pages are tried in order, each after
      a one-second pause. A page with e-mails ends the chain with them, a failed
      fetch ends it with none, and a page without e-mails hands over to the next. */
  function TryPages(urls: seq<string>, fetch: string -> FetchOutcome, extract: string -> seq<string>): (c: Chain)
    ensures CountWaits(c.trace, 1) == |PageUrls(c.trace)| <= |urls|
    ensures |urls| > 0 ==> |c.trace| >= 2 && c.trace[..2] == [Wait(1), FetchPage(urls[0])]
    ensures |c.emails| > 0 ==> exists i :: 0 <= i < |urls| && PageEmails(urls[i], fetch, extract) == Some(c.emails)
    decreases |urls|
  {
    if |urls| == 0 then Chain([], [])
    else
      var step := [Wait(1), FetchPage(urls[0])];
      assert CountWaits(step, 1) == |PageUrls(step)| == 1 by {
        assert step[1..] == [FetchPage(urls[0])] && step[1..][1..] == [];
        assert CountWaits(step[1..][1..], 1) == 0 && PageUrls(step[1..][1..]) == [];
        assert CountWaits(step[1..], 1) == 0 && PageUrls(step[1..]) == [urls[0]];
      }
      match fetch(urls[0])
      case Failed => Chain([], step)
      case Loaded(content) =>
        var found := extract(content);
        if |found| > 0 then Chain(found, step)
        else
          var rest := TryPages(urls[1..], fetch, extract);
          CountWaitsAppend(step, rest.trace, 1);
          PageUrlsAppend(step, rest.trace);
          assert |rest.emails| > 0 ==> exists i :: 0 <= i < |urls| && PageEmails(urls[i], fetch, extract) == Some(rest.emails) by {
            if |rest.emails| > 0 {
              var i :| 0 <= i < |urls[1..]| && PageEmails(urls[1..][i], fetch, extract) == Some(rest.emails);
              assert PageEmails(urls[i + 1], fetch, extract) == Some(rest.emails);
            }
          }
          Chain(rest.emails, step + rest.trace)
  }

  /** The trace of fetching `urls` in order, each after a one-second pause. */
  function Paced(urls: seq<string>): seq<Event> {
    if |urls| == 0 then [] else [Wait(1), FetchPage(urls[0])] + Paced(urls[1..])
  }

  /** A paced trace requests exactly its pages, in order, with one pause each. */
  lemma {:induction false} PacedPages(urls: seq<string>)
    ensures PageUrls(Paced(urls)) == urls
    ensures CountWaits(Paced(urls), 1) == |urls|
  {
    if |urls| > 0 {
      var step: seq<Event> := [Wait(1), FetchPage(urls[0])];
      assert step[1..] == [FetchPage(urls[0])] && step[1..][1..] == [];
      PageUrlsAppend(step, Paced(urls[1..]));
      CountWaitsAppend(step, Paced(urls[1..]), 1);
      PacedPages(urls[1..]);
    }
  }

  /** `c` fetched the first `n` pages, each once and after a pause; every page
      before the last one fetched loaded without e-mails; the chain stopped
      early only at a page that failed or had e-mails; and the e-mails are those
      of the last page fetched (none when it failed). */
  predicate StopsAfter(urls: seq<string>, fetch: string -> FetchOutcome, extract: string -> seq<string>,
                       c: Chain, n: nat)
  {
    && n <= |urls| && (n == 0 <==> |urls| == 0)
    && c.trace == Paced(urls[..n])
    && (forall i :: 0 <= i < n - 1 ==> PageEmails(urls[i], fetch, extract) == Some([]))
    && (n > 0 ==> c.emails == PageEmails(urls[n - 1], fetch, extract).GetOr([]))
    && (0 < n < |urls| ==> PageEmails(urls[n - 1], fetch, extract) != Some([]))
  }

  /** The fallback chain tries a non-empty prefix of the pages, in order, and
      stops at the first page that fails or yields e-mails. */
  lemma {:induction false} TryPagesStopsAtFirstResult(urls: seq<string>, fetch: string -> FetchOutcome,
                                                       extract: string -> seq<string>)
    ensures exists n: nat :: StopsAfter(urls, fetch, extract, TryPages(urls, fetch, extract), n)
    decreases |urls|
  {
    var c := TryPages(urls, fetch, extract);
    if |urls| == 0 {
      assert StopsAfter(urls, fetch, extract, c, 0) by {
        assert urls[..0] == [];
      }
    } else if PageEmails(urls[0], fetch, extract) != Some([]) {
      assert StopsAfter(urls, fetch, extract, c, 1) by {
        assert urls[..1][0] == urls[0] && urls[..1][1..] == [];
        assert c.emails == PageEmails(urls[0], fetch, extract).GetOr([]);
      }
    } else {
      var rest := TryPages(urls[1..], fetch, extract);
      TryPagesStopsAtFirstResult(urls[1..], fetch, extract);
      var m: nat :| StopsAfter(urls[1..], fetch, extract, rest, m);
      StopsOneLater(urls, fetch, extract, m);
    }
  }

  /** When the first page loads without e-mails, the chain stops one page
      later than the chain over the remaining pages. */
  lemma StopsOneLater(urls: seq<string>, fetch: string -> FetchOutcome, extract: string -> seq<string>, m: nat)
    requires |urls| > 0 && PageEmails(urls[0], fetch, extract) == Some([])
    requires StopsAfter(urls[1..], fetch, extract, TryPages(urls[1..], fetch, extract), m)
    ensures StopsAfter(urls, fetch, extract, TryPages(urls, fetch, extract), m + 1)
  {
    var rest := TryPages(urls[1..], fetch, extract);
    var step: seq<Event> := [Wait(1), FetchPage(urls[0])];
    assert TryPages(urls, fetch, extract) == Chain(rest.emails, step + rest.trace);
    assert Paced(urls[..m + 1]) == step + rest.trace by {
      assert urls[..m + 1][0] == urls[0] && urls[..m + 1][1..] == urls[1..][..m];
    }
    assert forall i :: 0 <= i < m ==> PageEmails(urls[i], fetch, extract) == Some([]) by {
      forall i | 0 < i < m
        ensures PageEmails(urls[i], fetch, extract) == Some([])
      {
        assert urls[1..][i - 1] == urls[i];
      }
    }
    assert m > 0 ==> urls[1..][m - 1] == urls[m];
  }

  /** The e-mail step for the selected website (`''` when none was found). */
  function EmailChain(website: string, fetch: string -> FetchOutcome, extract: string -> seq<string>): (c: Chain)
    ensures website == "" ==> c == Chain([], [])
    ensures website != "" ==> c == TryPages([website, ContactUrl(website)], fetch, extract)
    ensures (website != "" && PageEmails(website, fetch, extract).None?) ==> c.emails == []
    ensures (website != "" && PageEmails(website, fetch, extract) == Some(c.emails) && |c.emails| > 0)
              ==> c.trace == [Wait(1), FetchPage(website)]
    ensures (website != "" && PageEmails(website, fetch, extract).Some? && |PageEmails(website, fetch, extract).value| > 0)
              ==> c.emails == PageEmails(website, fetch, extract).value
    ensures (website != "" && PageEmails(website, fetch, extract) == Some([]))
              ==> c.emails == PageEmails(ContactUrl(website), fetch, extract).GetOr([])
    ensures (FetchPage(ContactUrl(website)) in c.trace) <==> (website != "" && PageEmails(website, fetch, extract) == Some([]))
  {
    if website == "" then Chain([], [])
    else
      var first := [Wait(1), FetchPage(website)];
      match fetch(website)
      case Failed => Chain([], first)
      case Loaded(content) =>
        var main := extract(content);
        assert |main| == 0 ==> main == [];
        if |main| > 0 then
          assert FetchPage(ContactUrl(website)) != FetchPage(website);
          Chain(main, first)
        else
          var contact := ContactUrl(website);
          var second := first + [Wait(1), FetchPage(contact)];
          assert [website, contact][1..] == [contact];
          match fetch(contact)
          case Failed =>
            Chain(main, second)
          case Loaded(page) =>
            var found := extract(page);
            assert |found| == 0 ==> TryPages([contact], fetch, extract) == Chain([], [Wait(1), FetchPage(contact)]) by {
              assert [contact][1..] == [];
            }
            if |found| > 0 then Chain(found, second) else Chain(main, second)
  }

  /** The contact URL does not depend on whether the site is written with a
      trailing slash. */
  lemma ContactUrlIgnoresTrailingSlash(website: string)
    requires !IsSuffix("/", website)
    ensures ContactUrl(website + "/") == ContactUrl(website)
  {
    assert IsSuffix("/", website + "/");
  }
}

=== FILE: names.dfy ===
/**
  Name reconciliation of `searchIndividualBusiness` (run.js): among the
  display names extracted from a lookup payload, pick the one that best
  matches the name that was searched for.
*/
module NameMatch {
  import opened Strings

  /** The lower-cased search terms: `businessName.toLowerCase().split(/\s+/)`. */
  function SearchTerms(searchName: string): (terms: seq<string>)
    ensures |terms| > 0
  {
    SplitSpaces(Lower(searchName))
  }

  /** Summed length of the terms that occur in `candidate` (already lower-cased). */
  function TermScore(candidate: string, terms: seq<string>): nat {
    if |terms| == 0 then 0
    else (if Contains(candidate, terms[0]) then |terms[0]| else 0) + TermScore(candidate, terms[1..])
  }

  /** Summed length of all terms: the best score any candidate can reach. */
  function TotalLength(terms: seq<string>): nat {
    if |terms| == 0 then 0 else |terms[0]| + TotalLength(terms[1..])
  }

  /** The score of one display name against the searched name. */
  function NameScore(searchName: string, candidate: string): nat {
    TermScore(Lower(candidate), SearchTerms(searchName))
  }

  function Scores(searchName: string, names: seq<string>): (scores: seq<nat>)
    ensures |scores| == |names|
    ensures forall i :: 0 <= i < |names| ==> scores[i] == NameScore(searchName, names[i])
  {
    seq(|names|, i requires 0 <= i < |names| => NameScore(searchName, names[i]))
  }

  /** `k` holds a maximal score and every earlier score is strictly smaller:
      the first maximum. */
  ghost predicate IsFirstBest(scores: seq<nat>, k: int) {
    && 0 <= k < |scores|
    && (forall j :: 0 <= j < |scores| ==> scores[j] <= scores[k])
    && (forall j :: 0 <= j < k ==> scores[j] < scores[k])
  }

  /** What the scan loop knows after visiting `scores[..i]` with current best
      `best` and best score `bestScore`, the score starting at 0 and the best
      at index 0. */
  ghost predicate ScanInvariant(scores: seq<nat>, i: nat, best: nat, bestScore: nat) {
    && 0 < |scores|
    && i <= |scores|
    && best < |scores|
    && (forall j :: 0 <= j < i ==> scores[j] <= bestScore)
    && (bestScore == 0 ==> best == 0)
    && (bestScore > 0 ==> best < i && scores[best] == bestScore && forall j :: 0 <= j < best ==> scores[j] < bestScore)
  }

  /** The loop `for (const name of businessNames) { if (score > bestScore) … }`
      from position `i` on: a candidate replaces the best only with a strictly
      greater score. */
  function ScanBest(scores: seq<nat>, i: nat, best: nat, bestScore: nat): (k: nat)
    requires ScanInvariant(scores, i, best, bestScore)
    ensures IsFirstBest(scores, k)
    decreases |scores| - i
  {
    if i == |scores| then best
    else if scores[i] > bestScore then ScanBest(scores, i + 1, i, scores[i])
    else ScanBest(scores, i + 1, best, bestScore)
  }

  /** Index of the reconciled name: the first candidate with the highest score. */
  function BestNameIndex(searchName: string, names: seq<string>): (k: nat)
    requires |names| > 0
    ensures IsFirstBest(Scores(searchName, names), k)
  {
    ScanBest(Scores(searchName, names), 0, 0, 0)
  }

  /** The reconciled business name: the search name itself when no display
      name was extracted, otherwise the earliest display name of highest score. */
  function ReconcileName(searchName: string, names: seq<string>): (r: string)
    ensures |names| == 0 ==> r == searchName
    ensures |names| > 0 ==>
      exists k :: (&& 0 <= k < |names| && r == names[k]
                   && (forall j :: 0 <= j < |names| ==> NameScore(searchName, names[j]) <= NameScore(searchName, names[k]))
                   && (forall j :: 0 <= j < k ==> NameScore(searchName, names[j]) < NameScore(searchName, names[k])))
  {
    if |names| == 0 then searchName
    else
      var k := BestNameIndex(searchName, names);
      assert IsFirstBest(Scores(searchName, names), k);
      names[k]
  }

  // ---------------------------------------------------------------------
  // Lemmas
  // ---------------------------------------------------------------------

  /** A score never exceeds the summed length of the terms, and reaches it
      exactly when every term occurs in the candidate. */
  lemma {:induction false} TermScoreBounds(candidate: string, terms: seq<string>)
    ensures TermScore(candidate, terms) <= TotalLength(terms)
    ensures (TermScore(candidate, terms) == TotalLength(terms))
        <==> (forall i :: 0 <= i < |terms| ==> Contains(candidate, terms[i]))
    decreases |terms|
  {
    if |terms| > 0 {
      TermScoreBounds(candidate, terms[1..]);
      if forall i :: 0 <= i < |terms| ==> Contains(candidate, terms[i]) {
        assert forall i :: 0 <= i < |terms| - 1 ==> terms[1..][i] == terms[i + 1];
      }
      if TermScore(candidate, terms) == TotalLength(terms) {
        forall i | 0 <= i < |terms|
          ensures Contains(candidate, terms[i])
        {
          if i > 0 {
            assert terms[i] == terms[1..][i - 1];
          }
        }
      }
    }
  }

  /** When some display name contains every search term, the reconciled name
      does too. */
  lemma FullMatchIsKept(searchName: string, names: seq<string>, k: nat)
    requires k < |names|
    requires forall t :: t in SearchTerms(searchName) ==> Contains(Lower(names[k]), t)
    ensures forall t :: t in SearchTerms(searchName) ==> Contains(Lower(ReconcileName(searchName, names)), t)
  {
    var terms := SearchTerms(searchName);
    var r := ReconcileName(searchName, names);
    TermScoreBounds(Lower(names[k]), terms);
    TermScoreBounds(Lower(r), terms);
    assert NameScore(searchName, r) >= NameScore(searchName, names[k]);
    forall t | t in terms
      ensures Contains(Lower(r), t)
    {
      var i :| 0 <= i < |terms| && terms[i] == t;
    }
  }
}

=== FILE: outcomes.dfy ===
/** Small failure-aware wrappers shared by every module of the model. */
module Outcomes {

  /** A value that may be absent: the source's `null` result. */
  datatype Option<+T> = None | Some(value: T) {

    /** The wrapped value, or `default` when there is none. */
    function GetOr(default: T): T {
      match this
      case Some(v) => v
      case None => default
    }
  }

  /** The outcome of an operation that may throw: `Err` carries the exception message. */
  datatype Result<+T> = Ok(value: T) | Err(message: string)
}

=== FILE: query.dfy ===
/**
  Query handling of run.js: composing the mapping-service lookup string and
  `parseQuery`, which splits a free-text query such as "dentiste fes" into a
  business type and a Moroccan city.
*/
module Query {
  import opened Strings
  import opened Outcomes

  /** The city list of `parseQuery`, in its order of preference. */
  const Cities: seq<string> := [
    "casablanca", "rabat", "fes", "fez", "marrakech", "marrakesh", "agadir",
    "tangier", "tanger", "meknes", "oujda", "kenitra", "tetouan", "safi",
    "mohammedia", "khouribga", "beni mellal", "el jadida", "taza", "nador",
    "settat", "larache", "ksar el kebir", "sale", "berrechid", "khemisset",
    "inezgane", "ouarzazate", "tiznit", "taroudant"
  ]

  /** The location used when the query names no listed city. */
  const DefaultLocation: string := "fes"

  datatype ParsedQuery = ParsedQuery(businessType: string, location: string)

  /** The lookup string `${name.replace(/\s+/g, '+')}+${location}`. */
  function LookupQuery(name: string, location: string): (q: string)
    ensures IsSuffix("+" + location, q)
  {
    var q := ReplaceSpaceRuns(name, '+') + "+" + location;
    assert q[|q| - |location| - 1..] == "+" + location;
    q
  }

  /** The lookup string is the whitespace-split name joined with `+`, then
      `+location`; nothing before that suffix is whitespace. */
  lemma LookupQueryShape(name: string, location: string)
    ensures var q := LookupQuery(name, location);
            && q == Join(SplitSpaces(name), '+') + "+" + location
            && |q| > |location| && NoSpace(q[..|q| - |location| - 1])
  {
    var r := ReplaceSpaceRuns(name, '+');
    var q := LookupQuery(name, location);
    assert q[..|q| - |location| - 1] == r;
    assert NoSpace(r) by {
      assert !IsSpace('+');
    }
    JoinSplitIsReplace(name, '+');
  }

  /** The lower-cased words of the query: `query.toLowerCase().split(/\s+/)`. */
  function Words(query: string): (words: seq<string>)
    ensures forall k :: 0 <= k < |words| ==> NoSpace(words[k])
  {
    SplitSpaces(Lower(query))
  }

  /** The first entry of `cities` at index `i` or later that is one of `words`. */
  function FirstListedFrom(cities: seq<string>, words: seq<string>, i: nat): (k: Option<nat>)
    requires i <= |cities|
    ensures k.Some? ==> i <= k.value < |cities| && cities[k.value] in words
    ensures k.Some? ==> forall j :: i <= j < k.value ==> cities[j] !in words
    ensures k.None? ==> forall j :: i <= j < |cities| ==> cities[j] !in words
    decreases |cities| - i
  {
    if i == |cities| then None
    else if cities[i] in words then Some(i)
    else FirstListedFrom(cities, words, i + 1)
  }

  // ---------------------------------------------------------------------
  // The removal `query.replace(new RegExp(`\\b${city}\\b`, 'gi'), '')`
  // ---------------------------------------------------------------------

  /** A regular expression with the `i` flag and without `u` compares ASCII
      letters regardless of case; no other character changes under it when the
      pattern is ASCII, as every city name is. */
  function FoldAscii(c: char): (f: char)
    ensures IsWordChar(f) == IsWordChar(c)
    ensures ('a' <= c <= 'z' || 'A' <= c <= 'Z') ==> 'A' <= f <= 'Z'
    ensures !('a' <= c <= 'z') ==> f == c
    ensures 'a' <= c <= 'z' ==> f as int == c as int - 32
  {
    if 'a' <= c <= 'z' then (c as int - 32) as char else c
  }

  /** `t` equals `w` up to the case of ASCII letters. */
  predicate FoldEq(t: string, w: string) {
    |t| == |w| && forall k :: 0 <= k < |w| ==> FoldAscii(t[k]) == FoldAscii(w[k])
  }

  /** `w` is a non-empty run of `\w` characters, as a one-word city name is. */
  predicate WordOnly(w: string) {
    |w| > 0 && forall k :: 0 <= k < |w| ==> IsWordChar(w[k])
  }

  /** `\b` holds at position `p` of `s`. */
  predicate IsBoundary(s: string, p: int)
    requires 0 <= p <= |s|
  {
    (p > 0 && IsWordChar(s[p - 1])) != (p < |s| && IsWordChar(s[p]))
  }

  /** `/\bw\b/i` matches `s` at position `i`. */
  predicate MatchesAt(s: string, w: string, i: int) {
    && 0 <= i <= |s| - |w|
    && IsBoundary(s, i)
    && IsBoundary(s, i + |w|)
    && FoldEq(s[i..i + |w|], w)
  }

  /** The global replacement of `/\bw\b/gi` by `''` on `s[i..]`: scanning
      left to right, each match is dropped and the scan resumes after it. */
  function RemoveWordFrom(s: string, w: string, i: nat): (r: string)
    requires i <= |s|
    ensures |r| <= |s| - i
    decreases |s| - i
  {
    if i == |s| then ""
    else if |w| > 0 && MatchesAt(s, w, i) then RemoveWordFrom(s, w, i + |w|)
    else [s[i]] + RemoveWordFrom(s, w, i + 1)
  }

  function RemoveWord(s: string, w: string): (r: string)
    ensures |r| <= |s|
  {
    RemoveWordFrom(s, w, 0)
  }

  /** Without a match from `i` on, the scan copies the rest of the text. */
  lemma {:induction false} NoMatchKeepsRest(s: string, w: string, i: nat)
    requires i <= |s|
    requires forall j :: i <= j <= |s| ==> !MatchesAt(s, w, j)
    ensures RemoveWordFrom(s, w, i) == s[i..]
    decreases |s| - i
  {
    if i < |s| {
      NoMatchKeepsRest(s, w, i + 1);
      assert s[i..] == [s[i]] + s[i + 1..];
    }
  }

  /** Without a whole-word match the text is unchanged. */
  lemma NoMatchKeepsText(s: string, w: string)
    requires !HasWord(s, w)
    ensures RemoveWord(s, w) == s
  {
    NoMatchKeepsRest(s, w, 0);
  }

  // ---------------------------------------------------------------------
  // The removal of a one-word city, as maximal runs of word characters
  // ---------------------------------------------------------------------

  /** Length of the run of `\w` characters at the start of `s`. */
  function RunLength(s: string): (n: nat)
    ensures n <= |s|
    ensures forall k :: 0 <= k < n ==> IsWordChar(s[k])
    ensures n < |s| ==> !IsWordChar(s[n])
  {
    if |s| > 0 && IsWordChar(s[0]) then 1 + RunLength(s[1..]) else 0
  }

  /** Every maximal run of `\w` characters of `s` that equals `w` up to ASCII
      case deleted; every other character kept, in order. */
  function DropWordRuns(s: string, w: string): (r: string)
    ensures |s| > 0 && !IsWordChar(s[0]) ==> |r| > 0 && r[0] == s[0]
    decreases |s|
  {
    if |s| == 0 then ""
    else if !IsWordChar(s[0]) then [s[0]] + DropWordRuns(s[1..], w)
    else
      var n := RunLength(s);
      (if FoldEq(s[..n], w) then "" else s[..n]) + DropWordRuns(s[n..], w)
  }

  /** A slice is its first character followed by the rest of the slice. */
  lemma ConsSlice(s: string, i: nat, j: nat, x: string)
    requires i < j <= |s|
    ensures [s[i]] + (s[i + 1..j] + x) == s[i..j] + x
  {
    assert s[i..j] == [s[i]] + s[i + 1..j];
  }

  /** Inside a run of word characters no match of a one-word `w` starts, so
      the scan copies the rest of the run. */
  lemma {:induction false} KeepRun(s: string, w: string, p: nat, j: nat)
    requires 0 < p <= j <= |s| && IsWordChar(s[p - 1])
    requires forall k :: p <= k < j ==> IsWordChar(s[k])
    ensures RemoveWordFrom(s, w, p) == s[p..j] + RemoveWordFrom(s, w, j)
    decreases j - p
  {
    if p < j {
      var rest := RemoveWordFrom(s, w, j);
      assert RemoveWordFrom(s, w, p) == [s[p]] + RemoveWordFrom(s, w, p + 1) by {
        assert !IsBoundary(s, p);
      }
      assert RemoveWordFrom(s, w, p + 1) == s[p + 1..j] + rest by {
        KeepRun(s, w, p + 1, j);
      }
      ConsSlice(s, p, j, rest);
    } else {
      assert s[p..j] == "";
    }
  }

  /** At the start of a run of word characters, a one-word `w` matches exactly
      when the whole run equals it up to ASCII case. */
  lemma MatchIsWholeRun(s: string, w: string, i: nat)
    requires WordOnly(w) && i < |s| && IsWordChar(s[i])
    requires i == 0 || !IsWordChar(s[i - 1])
    ensures MatchesAt(s, w, i) <==> FoldEq(s[i..i + RunLength(s[i..])], w)
  {
    var t := s[i..];
    var n := RunLength(t);
    if MatchesAt(s, w, i) {
      assert forall k :: 0 <= k < |w| ==> IsWordChar(t[k]) by {
        assert forall k :: 0 <= k < |w| ==> s[i..i + |w|][k] == t[k];
      }
      assert i + |w| == |s| || !IsWordChar(s[i + |w|]) by {
        assert IsWordChar(s[i + |w| - 1]) by {
          assert t[|w| - 1] == s[i + |w| - 1];
        }
      }
      assert n == |w| by {
        assert n >= |w|;
        assert |w| == |t| || !IsWordChar(t[|w|]);
      }
    }
    if FoldEq(s[i..i + n], w) {
      assert n == |w|;
      assert IsBoundary(s, i + n) by {
        assert IsWordChar(s[i + n - 1]) by {
          assert t[n - 1] == s[i + n - 1];
        }
        assert i + n < |s| ==> t[n] == s[i + n];
      }
    }
  }

  /** A non-word character is never the start of a match of a `w` that starts
      with a word character,
      so the scan copies it. */
  lemma RemoveStepNonWord(s: string, w: string, i: nat)
    requires |w| > 0 && IsWordChar(w[0]) && i < |s| && !IsWordChar(s[i])
    ensures RemoveWordFrom(s, w, i) == [s[i]] + RemoveWordFrom(s, w, i + 1)
  {
    assert !MatchesAt(s, w, i) by {
      if |w| <= |s| - i {
        assert s[i..i + |w|][0] == s[i];
        assert FoldAscii(s[i]) != FoldAscii(w[0]);
      }
    }
  }

  /** At the start of a run of word characters the scan either drops the whole
      run, when it equals `w` up to case, or copies it. */
  lemma RemoveStepAtRun(s: string, w: string, i: nat, j: nat)
    requires WordOnly(w) && i < |s| && IsWordChar(s[i])
    requires i == 0 || !IsWordChar(s[i - 1])
    requires j == i + RunLength(s[i..])
    ensures j <= |s| && (j == |s| || !IsWordChar(s[j]))
    ensures RemoveWordFrom(s, w, i)
         == (if FoldEq(s[i..j], w) then "" else s[i..j]) + RemoveWordFrom(s, w, j)
  {
    RunBounds(s, i, j);
    var m := MatchesAt(s, w, i);
    assert m <==> FoldEq(s[i..j], w) by {
      MatchIsWholeRun(s, w, i);
    }
    var kept := if m then "" else s[i..j];
    assert RemoveWordFrom(s, w, i) == kept + RemoveWordFrom(s, w, j) by {
      if m {
        assert i + |w| == j;
        assert RemoveWordFrom(s, w, i) == RemoveWordFrom(s, w, i + |w|);
        assert kept + RemoveWordFrom(s, w, j) == RemoveWordFrom(s, w, j);
      } else {
        CopyRun(s, w, i, j);
      }
    }
  }

  /** The run of word characters starting at `i` ends at `j`. */
  lemma RunBounds(s: string, i: nat, j: nat)
    requires i < |s| && j == i + RunLength(s[i..])
    ensures j <= |s| && (j == |s| || !IsWordChar(s[j]))
    ensures forall k :: i <= k < j ==> IsWordChar(s[k])
  {
    var t := s[i..];
    assert j < |s| ==> t[j - i] == s[j];
    assert forall k :: i <= k < j ==> t[k - i] == s[k];
  }

  /** A run of word characters at whose start `w` does not match is copied. */
  lemma CopyRun(s: string, w: string, i: nat, j: nat)
    requires i < j <= |s| && !MatchesAt(s, w, i)
    requires forall k :: i <= k < j ==> IsWordChar(s[k])
    ensures RemoveWordFrom(s, w, i) == s[i..j] + RemoveWordFrom(s, w, j)
  {
    var rest := RemoveWordFrom(s, w, j);
    assert RemoveWordFrom(s, w, i) == [s[i]] + RemoveWordFrom(s, w, i + 1);
    assert RemoveWordFrom(s, w, i + 1) == s[i + 1..j] + rest by {
      KeepRun(s, w, i + 1, j);
    }
    ConsSlice(s, i, j, rest);
  }

  /** `DropWordRuns` on a suffix of `s` that starts a run ending at `j`. */
  lemma DropStepAtRun(s: string, w: string, i: nat, j: nat)
    requires i < |s| && IsWordChar(s[i]) && j == i + RunLength(s[i..])
    ensures j <= |s|
    ensures DropWordRuns(s[i..], w)
         == (if FoldEq(s[i..j], w) then "" else s[i..j]) + DropWordRuns(s[j..], w)
  {
    var t := s[i..];
    assert t[0] == s[i];
    assert t[..j - i] == s[i..j] && t[j - i..] == s[j..];
  }

  /** The removal scan from a position that starts a token agrees with the
      reference on the rest of the text. */
  lemma {:induction false} RemoveFromIsDrop(s: string, w: string, i: nat)
    requires WordOnly(w) && i <= |s|
    requires i == 0 || i == |s| || !IsWordChar(s[i - 1]) || !IsWordChar(s[i])
    ensures RemoveWordFrom(s, w, i) == DropWordRuns(s[i..], w)
    decreases |s| - i
  {
    if i == |s| {
      assert s[i..] == "";
    } else if !IsWordChar(s[i]) {
      var rest := RemoveWordFrom(s, w, i + 1);
      assert RemoveWordFrom(s, w, i) == [s[i]] + rest by {
        assert IsWordChar(w[0]);
        RemoveStepNonWord(s, w, i);
      }
      assert rest == DropWordRuns(s[i + 1..], w) by {
        RemoveFromIsDrop(s, w, i + 1);
      }
      assert DropWordRuns(s[i..], w) == [s[i]] + DropWordRuns(s[i + 1..], w) by {
        assert s[i..][0] == s[i] && s[i..][1..] == s[i + 1..];
      }
    } else {
      var j := i + RunLength(s[i..]);
      var kept := if FoldEq(s[i..j], w) then "" else s[i..j];
      assert RemoveWordFrom(s, w, i) == kept + RemoveWordFrom(s, w, j) by {
        RemoveStepAtRun(s, w, i, j);
      }
      assert DropWordRuns(s[i..], w) == kept + DropWordRuns(s[j..], w) by {
        DropStepAtRun(s, w, i, j);
      }
      assert RemoveWordFrom(s, w, j) == DropWordRuns(s[j..], w) by {
        RemoveStepAtRun(s, w, i, j);
        RemoveFromIsDrop(s, w, j);
      }
    }
  }

  /** Removing a one-word `w` deletes exactly its whole-word occurrences and
      keeps every other character in order. */
  lemma RemoveWordDropsRuns(s: string, w: string)
    requires WordOnly(w)
    ensures RemoveWord(s, w) == DropWordRuns(s, w)
  {
    RemoveFromIsDrop(s, w, 0);
    assert s[0..] == s;
  }

  /** A match in `a + b` lies in `a` or in `b` when a non-word character
      separates them. */
  lemma MatchSplits(a: string, b: string, w: string, p: nat)
    requires WordOnly(w)
    requires (|a| == 0 || !IsWordChar(a[|a| - 1])) || (|b| == 0 || !IsWordChar(b[0]))
    ensures MatchesAt(a + b, w, p) ==> MatchesAt(a, w, p) || MatchesAt(b, w, p - |a|)
  {
    var ab := a + b;
    if MatchesAt(ab, w, p) {
      var m := ab[p..p + |w|];
      assert forall q :: p <= q < p + |w| ==> IsWordChar(ab[q]) by {
        assert forall q :: p <= q < p + |w| ==> m[q - p] == ab[q];
      }
      assert p + |w| <= |a| || p >= |a| by {
        if |a| > 0 {
          assert ab[|a| - 1] == a[|a| - 1];
        }
        if |b| > 0 {
          assert ab[|a|] == b[0];
        }
      }
      if p + |w| <= |a| {
        assert a[p..p + |w|] == m;
        assert p > 0 ==> ab[p - 1] == a[p - 1];
        assert ab[p] == a[p];
        assert ab[p + |w| - 1] == a[p + |w| - 1];
        assert p + |w| < |a| ==> ab[p + |w|] == a[p + |w|];
        assert MatchesAt(a, w, p);
      } else {
        var q := p - |a|;
        assert b[q..q + |w|] == m;
        assert ab[p] == b[q];
        assert q > 0 ==> ab[p - 1] == b[q - 1];
        assert ab[p + |w| - 1] == b[q + |w| - 1];
        assert q + |w| < |b| ==> ab[p + |w|] == b[q + |w|];
        assert MatchesAt(b, w, q);
      }
    }
  }

  /** Joining two texts without a one-word `w` across a non-word character
      creates no occurrence of it. */
  lemma JoinNoWord(a: string, b: string, w: string)
    requires WordOnly(w) && !HasWord(a, w) && !HasWord(b, w)
    requires (|a| == 0 || !IsWordChar(a[|a| - 1])) || (|b| == 0 || !IsWordChar(b[0]))
    ensures !HasWord(a + b, w)
  {
    forall p | 0 <= p <= |a + b|
      ensures !MatchesAt(a + b, w, p)
    {
      MatchSplits(a, b, w, p);
    }
  }

  /** A run of word characters contains a one-word `w` only as the whole run. */
  lemma NoWordInRun(t: string, w: string)
    requires WordOnly(w) && !FoldEq(t, w)
    requires forall k :: 0 <= k < |t| ==> IsWordChar(t[k])
    ensures !HasWord(t, w)
  {
    forall p | 0 <= p <= |t|
      ensures !MatchesAt(t, w, p)
    {
      if 0 < p < |t| {
        assert !IsBoundary(t, p);
      } else if p == 0 && |w| < |t| {
        assert !IsBoundary(t, |w|);
      } else if p == 0 && |w| == |t| {
        assert t[0..|w|] == t;
      }
    }
  }

  /** The reference removal leaves no whole-word occurrence of a one-word `w`. */
  lemma {:induction false} DropLeavesNoWord(s: string, w: string)
    requires WordOnly(w)
    ensures !HasWord(DropWordRuns(s, w), w)
    decreases |s|
  {
    if |s| == 0 {
    } else if !IsWordChar(s[0]) {
      DropLeavesNoWord(s[1..], w);
      assert !HasWord([s[0]], w) by {
        assert forall p :: 0 <= p <= 1 && MatchesAt([s[0]], w, p) ==> [s[0]][0..1][0] == s[0];
      }
      JoinNoWord([s[0]], DropWordRuns(s[1..], w), w);
    } else {
      var n := RunLength(s);
      var run := if FoldEq(s[..n], w) then "" else s[..n];
      DropLeavesNoWord(s[n..], w);
      assert !HasWord(run, w) by {
        if !FoldEq(s[..n], w) {
          NoWordInRun(s[..n], w);
        }
      }
      JoinNoWord(run, DropWordRuns(s[n..], w), w);
    }
  }

  /** A slice cut next to non-word characters keeps the absence of `w`. */
  lemma SliceNoWord(s: string, a: nat, b: nat, w: string)
    requires WordOnly(w) && !HasWord(s, w) && a <= b <= |s|
    requires a == 0 || !IsWordChar(s[a - 1])
    requires b == |s| || !IsWordChar(s[b])
    ensures !HasWord(s[a..b], w)
  {
    forall p | 0 <= p <= |s[a..b]|
      ensures !MatchesAt(s[a..b], w, p)
    {
      MatchInSlice(s, a, b, w, p);
    }
  }

  /** A match in a slice cut next to non-word characters is a match in the
      whole text. */
  lemma MatchInSlice(s: string, a: nat, b: nat, w: string, p: nat)
    requires WordOnly(w) && a <= b <= |s|
    requires a == 0 || !IsWordChar(s[a - 1])
    requires b == |s| || !IsWordChar(s[b])
    ensures MatchesAt(s[a..b], w, p) ==> MatchesAt(s, w, a + p)
  {
    var t := s[a..b];
    if MatchesAt(t, w, p) {
      assert s[a + p..a + p + |w|] == t[p..p + |w|] by {
        assert forall q :: a + p <= q < a + p + |w| ==> s[q] == t[q - a];
      }
      assert t[p] == s[a + p];
      assert p > 0 ==> t[p - 1] == s[a + p - 1];
      assert t[p + |w| - 1] == s[a + p + |w| - 1];
      assert p + |w| < |t| ==> t[p + |w|] == s[a + p + |w|];
    }
  }

  /** Trimming creates no occurrence of a one-word `w`. */
  lemma TrimNoWord(s: string, w: string)
    requires WordOnly(w) && !HasWord(s, w)
    ensures !HasWord(Trim(s), w)
  {
    var a, b :| && 0 <= a <= b <= |s| && Trim(s) == s[a..b]
                && (forall k :: 0 <= k < a ==> IsSpace(s[k]))
                && (forall k :: b <= k < |s| ==> IsSpace(s[k]));
    if a > 0 {
      SpaceIsNotWord(s[a - 1]);
    }
    if b < |s| {
      SpaceIsNotWord(s[b]);
    }
    SliceNoWord(s, a, b, w);
  }

  /** Collapsing whitespace runs to one space creates no occurrence of a
      one-word `w`. */
  lemma {:induction false} CollapseNoWord(s: string, w: string)
    requires WordOnly(w) && !HasWord(s, w)
    ensures !HasWord(ReplaceSpaceRuns(s, ' '), w)
    decreases |s|
  {
    var i := FirstSpace(s);
    if i == |s| {
      assert ReplaceSpaceRuns(s, ' ') == s by {
        ReplaceSpaceRunsCopiesPrefix(s, ' ', i);
        assert s[..i] == s && s[i..] == "";
      }
    } else {
      AfterSpacesNoWord(s, w, i);
      CollapseNoWord(SkipSpaces(s[i..]), w);
      CollapseStepNoWord(s, w, i);
    }
  }

  /** What follows the first whitespace run has no occurrence of `w` when the
      whole text has none. */
  lemma AfterSpacesNoWord(s: string, w: string, i: nat)
    requires WordOnly(w) && !HasWord(s, w)
    requires i == FirstSpace(s) && i < |s|
    ensures |SkipSpaces(s[i..])| < |s|
    ensures !HasWord(SkipSpaces(s[i..]), w)
  {
    var n := LeadingSpaces(s[i..]);
    var j := i + n;
    assert 0 < n && IsSpace(s[j - 1]) by {
      assert s[i..][0] == s[i];
      assert s[i..][n - 1] == s[j - 1];
    }
    assert SkipSpaces(s[i..]) == s[j..|s|];
    SpaceIsNotWord(s[j - 1]);
    SliceNoWord(s, j, |s|, w);
  }

  /** One step of the collapse: the text before the first whitespace run, one
      space, and the collapsed rest. */
  lemma CollapseStepNoWord(s: string, w: string, i: nat)
    requires WordOnly(w) && !HasWord(s, w)
    requires i == FirstSpace(s) && i < |s|
    requires !HasWord(ReplaceSpaceRuns(SkipSpaces(s[i..]), ' '), w)
    ensures !HasWord(ReplaceSpaceRuns(s, ' '), w)
  {
    assert !HasWord(s[..i], w) by {
      SpaceIsNotWord(s[i]);
      SliceNoWord(s, 0, i, w);
      assert s[0..i] == s[..i];
    }
    SpacedJoinNoWord(s[..i], ReplaceSpaceRuns(SkipSpaces(s[i..]), ' '), w);
    ReplaceStep(s, ' ', i);
  }

  /** Two texts without an occurrence of a one-word `w`, joined by a space,
      have none either. */
  lemma SpacedJoinNoWord(a: string, b: string, w: string)
    requires WordOnly(w) && !HasWord(a, w) && !HasWord(b, w)
    ensures !HasWord(a + ([' '] + b), w)
  {
    assert !HasWord([' '], w) by {
      assert forall p :: 0 <= p <= 1 && MatchesAt([' '], w, p) ==> [' '][0..1][0] == ' ';
    }
    JoinNoWord([' '], b, w);
    JoinNoWord(a, [' '] + b, w);
  }

  /** The business type left after removing a one-word city and normalizing
      whitespace no longer contains that city as a whole word. */
  lemma CityRemovedFromType(query: string, city: string)
    requires WordOnly(city)
    ensures !HasWord(Normalize(Trim(RemoveWord(query, city))), city)
  {
    RemoveWordDropsRuns(query, city);
    DropLeavesNoWord(query, city);
    var t := Trim(RemoveWord(query, city));
    TrimNoWord(RemoveWord(query, city), city);
    CollapseNoWord(t, city);
    TrimNoWord(Collapse(t), city);
  }

  // ---------------------------------------------------------------------
  // parseQuery
  // ---------------------------------------------------------------------

  /** For a one-word city, the business type built with the regular-expression
      removal is the one built by deleting the city's word runs. */
  lemma CleanedTypeDrops(query: string, city: string)
    ensures WordOnly(city) ==> Normalize(Trim(RemoveWord(query, city))) == Normalize(Trim(DropWordRuns(query, city)))
  {
    if WordOnly(city) {
      RemoveWordDropsRuns(query, city);
    }
  }

  /** `parseQuery` over a given city list: the location is the first listed
      city that is one of the query's lower-cased whitespace-separated words
      ("fes" when none is); the business type is the query with that city
      removed as a whole word, in any case, and whitespace normalized. */
  function ParseWith(cities: seq<string>, query: string): (r: ParsedQuery)
    requires DefaultLocation in cities
    ensures r.location == DefaultLocation || r.location in cities
    ensures NoSpace(r.location)
    ensures Normalized(r.businessType)
    ensures r.location in Words(query) <==> exists k :: 0 <= k < |cities| && cities[k] in Words(query)
    ensures (exists k :: 0 <= k < |cities| && cities[k] in Words(query))
              ==> exists k :: (&& 0 <= k < |cities| && r.location == cities[k] && cities[k] in Words(query)
                               && forall j :: 0 <= j < k ==> cities[j] !in Words(query))
    ensures (forall k :: 0 <= k < |cities| ==> cities[k] !in Words(query))
              ==> r == ParsedQuery(Normalize(query), DefaultLocation)
    ensures (exists k :: 0 <= k < |cities| && cities[k] in Words(query))
              ==> r.businessType == Normalize(Trim(RemoveWord(query, r.location)))
    ensures ((exists k :: 0 <= k < |cities| && cities[k] in Words(query)) && WordOnly(r.location))
              ==> r.businessType == Normalize(Trim(DropWordRuns(query, r.location)))
  {
    var words := Words(query);
    match FirstListedFrom(cities, words, 0)
    case None =>
      assert NoSpace(DefaultLocation) by {
        assert forall i :: 0 <= i < 3 ==> DefaultLocation[i] in "fes";
      }
      assert DefaultLocation !in words by {
        var d :| 0 <= d < |cities| && cities[d] == DefaultLocation;
      }
      ParsedQuery(Normalize(query), DefaultLocation)
    case Some(k) =>
      assert NoSpace(cities[k]) by {
        var n :| 0 <= n < |words| && words[n] == cities[k];
      }
      assert && 0 <= k < |cities| && cities[k] in words
             && forall j :: 0 <= j < k ==> cities[j] !in words;
      CleanedTypeDrops(query, cities[k]);
      ParsedQuery(Normalize(Trim(RemoveWord(query, cities[k]))), cities[k])
  }

  /** When a listed city is one of the query's words and is itself a single
      run of word characters, the business type no longer contains it. */
  lemma ParseWithRemovesCity(cities: seq<string>, query: string)
    requires DefaultLocation in cities
    ensures var r := ParseWith(cities, query);
            WordOnly(r.location) && (exists k :: 0 <= k < |cities| && cities[k] in Words(query)) ==> !HasWord(r.businessType, r.location)
  {
    match FirstListedFrom(cities, Words(query), 0)
    case None =>
    case Some(k) =>
      if WordOnly(cities[k]) {
        CityRemovedFromType(query, cities[k]);
      }
  }

  /** `parseQuery` with the Moroccan city list. */
  function ParseQuery(query: string): (r: ParsedQuery)
    ensures r.location == DefaultLocation || r.location in Cities
    ensures NoSpace(r.location)
    ensures Normalized(r.businessType)
    ensures r.location in Words(query) <==> exists k :: 0 <= k < |Cities| && Cities[k] in Words(query)
    ensures (exists k :: 0 <= k < |Cities| && Cities[k] in Words(query))
              ==> exists k :: (&& 0 <= k < |Cities| && r.location == Cities[k] && Cities[k] in Words(query)
                               && forall j :: 0 <= j < k ==> Cities[j] !in Words(query))
    ensures (forall k :: 0 <= k < |Cities| ==> Cities[k] !in Words(query))
              ==> r == ParsedQuery(Normalize(query), DefaultLocation)
    ensures (exists k :: 0 <= k < |Cities| && Cities[k] in Words(query))
              ==> r.businessType == Normalize(Trim(RemoveWord(query, r.location)))
    ensures ((exists k :: 0 <= k < |Cities| && Cities[k] in Words(query)) && WordOnly(r.location))
              ==> r.businessType == Normalize(Trim(DropWordRuns(query, r.location)))
  {
    assert Cities[2] == DefaultLocation;
    ParseWith(Cities, query)
  }

  /** A city name with a space in it (as "beni mellal", "el jadida" and
      "ksar el kebir" have at positions 4, 2 and 4) can never be the location,
      since the words it is compared with come from a whitespace split. */
  lemma SpacedCityNeverChosen(query: string, city: string, i: nat)
    requires i < |city| && IsSpace(city[i])
    ensures ParseQuery(query).location != city
  {
    var loc := ParseQuery(query).location;
    if |loc| == |city| {
      assert loc[i] != city[i];
    }
  }

  // ---------------------------------------------------------------------
  // City detection by whole-word match
  // ---------------------------------------------------------------------

  /** `/\bw\b/i` matches `s` somewhere at `i` or later. */
  function HasWordFrom(s: string, w: string, i: nat): (b: bool)
    requires i <= |s| + 1
    ensures b <==> exists j :: i <= j <= |s| && MatchesAt(s, w, j)
    decreases |s| + 1 - i
  {
    if i == |s| + 1 then false
    else MatchesAt(s, w, i) || HasWordFrom(s, w, i + 1)
  }

  function HasWord(s: string, w: string): (b: bool)
    ensures b <==> exists j :: 0 <= j <= |s| && MatchesAt(s, w, j)
  {
    HasWordFrom(s, w, 0)
  }

  /** The first entry of `cities` at index `i` or later that the query contains
      as a whole word, in any case. */
  function FirstMatchingFrom(cities: seq<string>, query: string, i: nat): (k: Option<nat>)
    requires i <= |cities|
    ensures k.Some? ==> i <= k.value < |cities| && HasWord(query, cities[k.value])
    ensures k.Some? ==> forall j :: i <= j < k.value ==> !HasWord(query, cities[j])
    ensures k.None? ==> forall j :: i <= j < |cities| ==> !HasWord(query, cities[j])
    decreases |cities| - i
  {
    if i == |cities| then None
    else if HasWord(query, cities[i]) then Some(i)
    else FirstMatchingFrom(cities, query, i + 1)
  }

  /** `parseQuery` over a given city list with the city found the way it is
      removed: as a whole-word, case-insensitive match, so that multi-word
      cities are found too. The location is the earliest listed city the query
      contains; the business type is the query without it. */
  function ParseIntendedWith(cities: seq<string>, query: string): (r: ParsedQuery)
    ensures r.location == DefaultLocation || r.location in cities
    ensures Normalized(r.businessType)
    ensures (forall k :: 0 <= k < |cities| ==> !HasWord(query, cities[k]))
              ==> r == ParsedQuery(Normalize(query), DefaultLocation)
    ensures (exists k :: 0 <= k < |cities| && HasWord(query, cities[k]))
              ==> exists k :: (&& 0 <= k < |cities| && r.location == cities[k] && HasWord(query, cities[k])
                               && forall j :: 0 <= j < k ==> !HasWord(query, cities[j]))
    ensures (exists k :: 0 <= k < |cities| && HasWord(query, cities[k]))
              ==> r.businessType == Normalize(Trim(RemoveWord(query, r.location)))
    ensures ((exists k :: 0 <= k < |cities| && HasWord(query, cities[k])) && WordOnly(r.location))
              ==> r.businessType == Normalize(Trim(DropWordRuns(query, r.location)))
  {
    match FirstMatchingFrom(cities, query, 0)
    case None =>
      assert !exists k :: 0 <= k < |cities| && HasWord(query, cities[k]);
      ParsedQuery(Normalize(query), DefaultLocation)
    case Some(k) =>
      CleanedTypeDrops(query, cities[k]);
      ParsedQuery(Normalize(Trim(RemoveWord(query, cities[k]))), cities[k])
  }

  /** Under the corrected parse, a detected one-word city no longer occurs in
      the business type. */
  lemma ParseIntendedRemovesCity(cities: seq<string>, query: string)
    ensures var r := ParseIntendedWith(cities, query);
            WordOnly(r.location) && (exists k :: 0 <= k < |cities| && HasWord(query, cities[k])) ==> !HasWord(r.businessType, r.location)
  {
    match FirstMatchingFrom(cities, query, 0)
    case None =>
    case Some(k) =>
      if WordOnly(cities[k]) {
        CityRemovedFromType(query, cities[k]);
      }
  }

  /** The corrected `parseQuery` with the Moroccan city list. */
  function ParseQueryIntended(query: string): (r: ParsedQuery)
    ensures r.location == DefaultLocation || r.location in Cities
    ensures Normalized(r.businessType)
    ensures (forall k :: 0 <= k < |Cities| ==> !HasWord(query, Cities[k]))
              ==> r == ParsedQuery(Normalize(query), DefaultLocation)
    ensures (exists k :: 0 <= k < |Cities| && HasWord(query, Cities[k]))
              ==> exists k :: (&& 0 <= k < |Cities| && r.location == Cities[k] && HasWord(query, Cities[k])
                               && forall j :: 0 <= j < k ==> !HasWord(query, Cities[j]))
    ensures (exists k :: 0 <= k < |Cities| && HasWord(query, Cities[k]))
              ==> r.businessType == Normalize(Trim(RemoveWord(query, r.location)))
    ensures ((exists k :: 0 <= k < |Cities| && HasWord(query, Cities[k])) && WordOnly(r.location))
              ==> r.businessType == Normalize(Trim(DropWordRuns(query, r.location)))
  {
    ParseIntendedWith(Cities, query)
  }

  /** Under the corrected parse, the earliest listed city the query contains
      is the location. */
  lemma IntendedPicksEarliest(cities: seq<string>, query: string, k0: nat)
    requires k0 < |cities| && HasWord(query, cities[k0])
    requires forall j :: 0 <= j < k0 ==> !HasWord(query, cities[j])
    ensures ParseIntendedWith(cities, query).location == cities[k0]
  {
    var r := ParseIntendedWith(cities, query);
    var k :| (&& 0 <= k < |cities| && r.location == cities[k] && HasWord(query, cities[k])
              && forall j :: 0 <= j < k ==> !HasWord(query, cities[j]));
    assert k == k0;
  }

  /** With the whole-word detection, "beni mellal" is chosen whenever the
      query contains it and no city listed earlier. */
  lemma MultiWordCityChosen(query: string)
    requires HasWord(query, "beni mellal")
    requires forall j :: 0 <= j < 16 ==> !HasWord(query, Cities[j])
    ensures ParseQueryIntended(query).location == "beni mellal"
  {
    assert Cities[16] == "beni mellal";
    IntendedPicksEarliest(Cities, query, 16);
  }

  /** The run of word characters at the start of `t + rest` is `t` itself
      when `rest` does not continue it. */
  lemma {:induction false} RunLengthOfWord(t: string, rest: string)
    requires forall k :: 0 <= k < |t| ==> IsWordChar(t[k])
    requires |rest| == 0 || !IsWordChar(rest[0])
    ensures RunLength(t + rest) == |t|
  {
    if |t| > 0 {
      assert (t + rest)[0] == t[0];
      assert (t + rest)[1..] == t[1..] + rest;
      RunLengthOfWord(t[1..], rest);
    } else {
      assert t + rest == rest;
    }
  }

  /** `DropWordRuns` on a text that starts with a whole run `t` of word
      characters. */
  lemma DropLeadingRun(t: string, rest: string, w: string)
    requires |t| > 0 && forall k :: 0 <= k < |t| ==> IsWordChar(t[k])
    requires |rest| == 0 || !IsWordChar(rest[0])
    ensures DropWordRuns(t + rest, w) == (if FoldEq(t, w) then "" else t) + DropWordRuns(rest, w)
  {
    var s := t + rest;
    RunLengthOfWord(t, rest);
    assert s[0] == t[0];
    assert s[..|t|] == t && s[|t|..] == rest;
  }

  /** Removing a one-word city from "type city", where the type is a
      different single word, leaves the type and the space. */
  lemma RemoveCityAfterType(t: string, c: string)
    requires WordOnly(t) && WordOnly(c) && !FoldEq(t, c)
    ensures RemoveWord(t + [' '] + c, c) == t + [' ']
  {
    RemoveWordDropsRuns(t + [' '] + c, c);
    DropCityAfterType(t, c);
  }

  /** Deleting a one-word city's runs from the city itself leaves nothing. */
  lemma DropWholeCity(c: string)
    requires WordOnly(c)
    ensures DropWordRuns(c, c) == ""
  {
    assert FoldEq(c, c);
    assert c + "" == c;
    DropLeadingRun(c, "", c);
  }

  /** Deleting a one-word city's runs from " city" leaves the space. */
  lemma DropSpaceThenCity(c: string)
    requires WordOnly(c)
    ensures DropWordRuns([' '] + c, c) == [' ']
  {
    var tail := [' '] + c;
    assert tail[0] == ' ' && tail[1..] == c;
    assert DropWordRuns(tail, c) == [' '] + DropWordRuns(c, c);
    DropWholeCity(c);
  }

  /** Deleting a one-word city's runs from "type city" keeps the differing
      type and the space. */
  lemma DropCityAfterType(t: string, c: string)
    requires WordOnly(t) && WordOnly(c) && !FoldEq(t, c)
    ensures DropWordRuns(t + [' '] + c, c) == t + [' ']
  {
    assert t + [' '] + c == t + ([' '] + c);
    DropLeadingRun(t, [' '] + c, c);
    DropSpaceThenCity(c);
  }

  /** Trimming a word followed by one space gives the word back. */
  lemma TrimWordSpace(t: string)
    requires WordOnly(t)
    ensures Trim(t + [' ']) == t
  {
    var x := t + [' '];
    var a, b :| && 0 <= a <= b <= |x| && Trim(x) == x[a..b]
                && (forall k :: 0 <= k < a ==> IsSpace(x[k]))
                && (forall k :: b <= k < |x| ==> IsSpace(x[k]));
    assert x[0] == t[0] && x[|t| - 1] == t[|t| - 1];
    SpaceIsNotWord(t[0]);
    SpaceIsNotWord(t[|t| - 1]);
    assert a == 0 && b >= |t|;
    assert IsSpace(x[|t|]) && x[a..|x|][|x| - 1 - a] == x[|t|];
    assert x[0..|t|] == t;
  }

  /** A word contains no whitespace, so it is already normalized. */
  lemma WordIsNormalized(t: string)
    requires WordOnly(t)
    ensures Normalize(t) == t
  {
    forall k | 0 <= k < |t|
      ensures !IsSpace(t[k])
    {
      SpaceIsNotWord(t[k]);
    }
  }

  /** A query made of a one-word business type, a space and a different
      one-word city leaves exactly the business type once the city is
      removed and the rest trimmed and collapsed. */
  lemma TypeThenCity(t: string, c: string)
    requires WordOnly(t) && WordOnly(c) && !FoldEq(t, c)
    ensures Normalize(Trim(RemoveWord(t + [' '] + c, c))) == t
  {
    RemoveCityAfterType(t, c);
    TrimWordSpace(t);
    WordIsNormalized(t);
  }

  /** "dentiste fes" asks for dentists in Fes: the type is "dentiste". */
  lemma DentisteFes()
    ensures Normalize(Trim(RemoveWord("dentiste fes", "fes"))) == "dentiste"
  {
    assert "dentiste fes" == "dentiste" + [' '] + "fes";
    TypeThenCity("dentiste", "fes");
  }

  /** A run of word characters contains no whitespace. */
  lemma WordHasNoSpace(w: string)
    requires WordOnly(w)
    ensures NoSpace(w)
  {
    forall i | 0 <= i < |w|
      ensures !IsSpace(w[i])
    {
      SpaceIsNotWord(w[i]);
    }
  }

  /** The words of "type city" are the lower-cased type and city. */
  lemma WordsOfTypeThenCity(t: string, c: string)
    requires NoSpace(t) && NoSpace(c) && |c| > 0
    ensures Words(t + [' '] + c) == [Lower(t), Lower(c)]
  {
    LowerAppend(t + [' '], c);
    LowerAppend(t, [' ']);
    assert Lower([' ']) == [' '];
    LowerKeepsNoSpace(t);
    LowerKeepsNoSpace(c);
    SplitTwoWords(Lower(t), Lower(c));
  }

  /** The location `parseQuery` picks is the first listed city among the
      query's words. */
  lemma FirstListedIsLocation(cities: seq<string>, query: string, k: nat)
    requires DefaultLocation in cities
    requires k < |cities| && cities[k] in Words(query)
    requires forall j :: 0 <= j < k ==> cities[j] !in Words(query)
    ensures ParseWith(cities, query).location == cities[k]
  {
    var r := ParseWith(cities, query);
    var k' :| (&& 0 <= k' < |cities| && r.location == cities[k'] && cities[k'] in Words(query)
               && forall j :: 0 <= j < k' ==> cities[j] !in Words(query));
  }

  /** The city found in "type city" is that city, when neither the type nor an
      earlier entry names a city listed before it. */
  lemma TypeThenCityLocation(cities: seq<string>, t: string, k: nat)
    requires DefaultLocation in cities
    requires k < |cities| && WordOnly(t) && WordOnly(cities[k]) && Lower(cities[k]) == cities[k]
    requires forall j :: 0 <= j < k ==> cities[j] != Lower(t) && cities[j] != cities[k]
    ensures cities[k] in Words(t + [' '] + cities[k])
    ensures ParseWith(cities, t + [' '] + cities[k]).location == cities[k]
  {
    var c := cities[k];
    var q := t + [' '] + c;
    var w := Words(q);
    assert w == [Lower(t), c] by {
      WordHasNoSpace(t);
      WordHasNoSpace(c);
      WordsOfTypeThenCity(t, c);
    }
    assert c in w by {
      assert w[1] == c;
    }
    assert forall j :: 0 <= j < k ==> cities[j] !in w;
    FirstListedIsLocation(cities, q, k);
  }

  /** `parseQuery` on "type city" over any city list: a one-word type followed
      by a listed one-word city in lower case, with neither the type nor an
      earlier entry naming a city listed before it, yields exactly that type
      and that city. */
  lemma ParseWithTypeThenCity(cities: seq<string>, t: string, k: nat)
    requires DefaultLocation in cities
    requires k < |cities| && WordOnly(t) && WordOnly(cities[k]) && Lower(cities[k]) == cities[k]
    requires !FoldEq(t, cities[k])
    requires forall j :: 0 <= j < k ==> cities[j] != Lower(t) && cities[j] != cities[k]
    ensures ParseWith(cities, t + [' '] + cities[k]) == ParsedQuery(t, cities[k])
  {
    var c := cities[k];
    var q := t + [' '] + c;
    var r := ParseWith(cities, q);
    assert r.location == c && c in Words(q) by {
      TypeThenCityLocation(cities, t, k);
    }
    assert r.businessType == Normalize(Trim(RemoveWord(q, c)));
    TypeThenCity(t, c);
  }

  /** The same for the Moroccan city list. */
  lemma ParseTypeThenCity(t: string, k: nat)
    requires k < |Cities| && WordOnly(t) && WordOnly(Cities[k]) && Lower(Cities[k]) == Cities[k]
    requires !FoldEq(t, Cities[k])
    requires forall j :: 0 <= j < k ==> Cities[j] != Lower(t) && Cities[j] != Cities[k]
    ensures ParseQuery(t + [' '] + Cities[k]) == ParsedQuery(t, Cities[k])
  {
    assert Cities[2] == DefaultLocation;
    ParseWithTypeThenCity(Cities, t, k);
  }

  /** `parseQuery("dentiste fes")` gives the business type "dentiste" in Fes. */
  lemma ParseDentisteFes()
    ensures ParseQuery("dentiste fes") == ParsedQuery("dentiste", "fes")
  {
    assert "dentiste fes" == "dentiste" + [' '] + "fes";
    assert Cities[2] == "fes";
    assert Lower("dentiste") == "dentiste" && Lower("fes") == "fes";
    ParseTypeThenCity("dentiste", 2);
  }

  /** A word that needs a letter the text lacks, in either case, is nowhere
      in the text. */
  lemma MissingLetterNoWord(s: string, w: string, p: nat)
    requires p < |w| && 'a' <= w[p] <= 'z'
    requires forall i :: 0 <= i < |s| ==> s[i] == ' ' || ('a' <= s[i] <= 'z' && s[i] != w[p])
    ensures !HasWord(s, w)
  {
    forall j | 0 <= j <= |s|
      ensures !MatchesAt(s, w, j)
    {
      if j + |w| <= |s| {
        var u := s[j..j + |w|];
        assert u[p] == s[j + p];
        FoldSeparates(u[p], w[p]);
        assert !FoldEq(u, w);
      }
    }
  }

  /** A space or a lower-case letter folds differently from any other
      lower-case letter. */
  lemma FoldSeparates(a: char, b: char)
    requires a == ' ' || 'a' <= a <= 'z'
    requires 'a' <= b <= 'z' && a != b
    ensures FoldAscii(a) != FoldAscii(b)
  {
  }

  /** No city listed before "beni mellal" occurs in "dentiste beni mellal":
      each needs a letter among c, r, f, g, k and o, and the query has none. */
  lemma NoCityBeforeBeniMellal()
    ensures forall j :: 0 <= j < 16 ==> !HasWord("dentiste beni mellal", Cities[j])
  {
    var q := "dentiste beni mellal";
    forall j | 0 <= j < 16
      ensures !HasWord(q, Cities[j])
    {
      var p := if j in {0, 1, 2, 3, 10, 11, 15} then 0
               else if j in {6, 14} then 1
               else if j in {4, 5, 9, 13} then 2
               else 3;
      MissingLetterNoWord(q, Cities[j], p);
    }
  }

  /** Under the corrected parse, "dentiste beni mellal" gives the business
      type "dentiste" in Beni Mellal. */
  lemma ParseIntendedDentisteBeniMellal()
    ensures ParseQueryIntended("dentiste beni mellal") == ParsedQuery("dentiste", "beni mellal")
  {
    var q := "dentiste beni mellal";
    var r := ParseQueryIntended(q);
    assert r.location == "beni mellal" by {
      BeniMellalOccurs();
      NoCityBeforeBeniMellal();
      MultiWordCityChosen(q);
    }
    assert r.businessType == Normalize(Trim(RemoveWord(q, "beni mellal"))) by {
      BeniMellalOccurs();
    }
    DentisteBeniMellal();
  }

  /** "beni mellal" occurs in "dentiste beni mellal" as a whole word. */
  lemma BeniMellalOccurs()
    ensures Cities[16] == "beni mellal"
    ensures HasWord("dentiste beni mellal", "beni mellal")
    ensures HasWord("dentiste beni mellal", Cities[16])
  {
    var q := "dentiste beni mellal";
    assert Cities[16] == "beni mellal";
    assert q[9..20] == "beni mellal";
    assert MatchesAt(q, "beni mellal", 9);
  }

  /** Removing a city that may span several words from "type city", where the
      type is one word whose first letter differs from the city's. */
  lemma RemoveSpacedCityAfterType(t: string, c: string)
    requires WordOnly(t) && |c| > 0 && IsWordChar(c[0]) && IsWordChar(c[|c| - 1])
    requires FoldAscii(t[0]) != FoldAscii(c[0])
    ensures RemoveWord(t + [' '] + c, c) == t + [' ']
  {
    var s := t + [' '] + c;
    var n := |t|;
    assert RemoveWordFrom(s, c, 0) == t + RemoveWordFrom(s, c, n) by {
      assert s[..n] == t;
      assert forall k :: 0 <= k < n ==> IsWordChar(s[k]) by {
        assert forall k :: 0 <= k < n ==> s[..n][k] == s[k];
      }
      FirstLetterNoMatch(s, c, 0);
      CopyRun(s, c, 0, n);
      assert s[0..n] == s[..n];
    }
    assert RemoveWordFrom(s, c, n) == [' '] + RemoveWordFrom(s, c, n + 1) by {
      assert s[n] == ' ';
      SpaceIsNotWord(' ');
      RemoveStepNonWord(s, c, n);
    }
    assert RemoveWordFrom(s, c, n + 1) == "" by {
      assert s[n + 1..n + 1 + |c|] == c;
      assert MatchesAt(s, c, n + 1);
    }
  }

  /** No match starts at a letter that differs, up to case, from the first
      letter of `w`. */
  lemma FirstLetterNoMatch(s: string, w: string, i: nat)
    requires |w| > 0 && i < |s| && FoldAscii(s[i]) != FoldAscii(w[0])
    ensures !MatchesAt(s, w, i)
  {
    if i + |w| <= |s| {
      assert s[i..i + |w|][0] == s[i];
    }
  }

  /** The corrected parse's removal of "beni mellal" from
      "dentiste beni mellal" leaves "dentiste". */
  lemma DentisteBeniMellal()
    ensures Normalize(Trim(RemoveWord("dentiste beni mellal", "beni mellal"))) == "dentiste"
  {
    assert "dentiste beni mellal" == "dentiste" + [' '] + "beni mellal";
    RemoveSpacedCityAfterType("dentiste", "beni mellal");
    TrimWordSpace("dentiste");
    WordIsNormalized("dentiste");
  }
}

=== FILE: ranking.dfy ===
/**
  The candidate ranking of debug-addresses.js: a copy of the address
  candidates sorted longest first by a stable sort, and the longest one
  selected.
*/
module Ranking {

  /** Lengths never increase along `s`. */
  predicate LongestFirst(s: seq<string>) {
    forall i, j :: 0 <= i < j < |s| ==> |s[i]| >= |s[j]|
  }

  /** The entries of `s` of length `n`, in their order in `s`. */
  function OfLength(s: seq<string>, n: nat): seq<string> {
    if |s| == 0 then []
    else (if |s[0]| == n then [s[0]] else []) + OfLength(s[1..], n)
  }

  /** `k` is the first entry of greatest length. */
  predicate IsFirstLongest(s: seq<string>, k: int) {
    && 0 <= k < |s|
    && (forall j :: 0 <= j < |s| ==> |s[j]| <= |s[k]|)
    && (forall j :: 0 <= j < k ==> |s[j]| < |s[k]|)
  }

  /** `x` placed into the longest-first `s` ahead of every entry no longer
      than it: since `x` came before all of `s` in the input, this keeps equal
      lengths in input order. */
  function Insert(x: string, s: seq<string>): (r: seq<string>)
    requires LongestFirst(s)
    ensures LongestFirst(r)
    ensures multiset(r) == multiset(s) + multiset{x}
    ensures |r| == |s| + 1
    ensures |r[0]| == if |s| > 0 && |s[0]| > |x| then |s[0]| else |x|
    decreases |s|
  {
    if |s| == 0 || |s[0]| <= |x| then [x] + s
    else
      var rest := Insert(x, s[1..]);
      assert s == [s[0]] + s[1..];
      HeadBoundsInsert(x, s, rest);
      [s[0]] + rest
  }

  /** Every entry of `rest` (the tail of `s` with `x` added) is no longer
      than the head of `s`, when `x` is shorter than that head. */
  lemma HeadBoundsInsert(x: string, s: seq<string>, rest: seq<string>)
    requires LongestFirst(s) && |s| > 0 && |x| < |s[0]|
    requires multiset(rest) == multiset(s[1..]) + multiset{x}
    ensures forall j :: 0 <= j < |rest| ==> |rest[j]| <= |s[0]|
  {
    forall j | 0 <= j < |rest|
      ensures |rest[j]| <= |s[0]|
    {
      assert rest[j] in multiset(rest);
      if rest[j] != x {
        assert rest[j] in multiset(s[1..]);
        var m :| 0 <= m < |s[1..]| && s[1..][m] == rest[j];
        assert s[m + 1] == rest[j];
      }
    }
  }

  /** `[...candidates].sort((a, b) => b.length - a.length)`, modelled as a
      stable insertion sort (the sort of the language is stable). */
  function SortByLength(xs: seq<string>): (r: seq<string>)
    ensures LongestFirst(r)
    ensures multiset(r) == multiset(xs)
    ensures |r| == |xs|
    decreases |xs|
  {
    if |xs| == 0 then []
    else
      assert xs == [xs[0]] + xs[1..];
      Insert(xs[0], SortByLength(xs[1..]))
  }

  /** The longest candidate: `sorted[0]`, defined only when there is one. */
  function Selected(candidates: seq<string>): (r: string)
    requires |candidates| > 0
    ensures r in candidates
    ensures forall j :: 0 <= j < |candidates| ==> |candidates[j]| <= |r|
  {
    var sorted := SortByLength(candidates);
    assert sorted[0] in multiset(candidates) by {
      assert sorted[0] in multiset(sorted);
    }
    forall j | 0 <= j < |candidates|
      ensures |candidates[j]| <= |sorted[0]|
    {
      assert candidates[j] in multiset(sorted);
      var m :| 0 <= m < |sorted| && sorted[m] == candidates[j];
    }
    sorted[0]
  }

  // ---------------------------------------------------------------------
  // Lemmas
  // ---------------------------------------------------------------------

  /** Inserting keeps the entries of each length in order, with `x` ahead of
      the entries of its own length. */
  lemma {:induction false} InsertOfLength(x: string, s: seq<string>, n: nat)
    requires LongestFirst(s)
    ensures OfLength(Insert(x, s), n) == (if |x| == n then [x] else []) + OfLength(s, n)
    decreases |s|
  {
    if |s| == 0 || |s[0]| <= |x| {
      assert Insert(x, s) == [x] + s;
      assert ([x] + s)[1..] == s;
    } else {
      var rest := Insert(x, s[1..]);
      var head := if |s[0]| == n then [s[0]] else [];
      assert Insert(x, s) == [s[0]] + rest;
      assert OfLength([s[0]] + rest, n) == head + OfLength(rest, n) by {
        assert ([s[0]] + rest)[1..] == rest;
      }
      InsertOfLength(x, s[1..], n);
      assert OfLength(s, n) == head + OfLength(s[1..], n);
      if |x| == n {
        assert head == [];
      }
    }
  }

  /** The sort is stable: for every length, the candidates of that length
      appear in the sorted copy in the order they were extracted. */
  lemma {:induction false} SortIsStable(xs: seq<string>, n: nat)
    ensures OfLength(SortByLength(xs), n) == OfLength(xs, n)
    decreases |xs|
  {
    if |xs| > 0 {
      SortIsStable(xs[1..], n);
      InsertOfLength(xs[0], SortByLength(xs[1..]), n);
    }
  }

  /** The selected candidate is the first of the longest ones in extraction
      order. */
  lemma {:induction false} SelectedIsFirstLongest(candidates: seq<string>)
    requires |candidates| > 0
    ensures exists k :: IsFirstLongest(candidates, k) && Selected(candidates) == candidates[k]
    decreases |candidates|
  {
    var x := candidates[0];
    var tail := candidates[1..];
    if |tail| == 0 {
      assert IsFirstLongest(candidates, 0);
    } else {
      SelectedIsFirstLongest(tail);
      var k :| IsFirstLongest(tail, k) && Selected(tail) == tail[k];
      var sortedTail := SortByLength(tail);
      assert Selected(candidates) == Insert(x, sortedTail)[0];
      if |sortedTail[0]| > |x| {
        assert IsFirstLongest(candidates, k + 1);
      } else {
        assert IsFirstLongest(candidates, 0);
      }
    }
  }
}

=== FILE: strings.dfy ===
/**
  The JavaScript string operations the scraper relies on, over `string` (a
  sequence of Unicode scalar values):
  - `s.split(/\s+/)`            is `SplitSpaces`
  - `s.replace(/\s+/g, sep)`    is `ReplaceSpaceRuns`
  - `s.trim()`                  is `Trim`
  - `s.toLowerCase()`           is `Lower` (ASCII and Latin-1 letters only)
  - `s.includes(t)`             is `Contains`
  - `s.endsWith(t)`             is `IsSuffix`
*/
module Strings {

  /** JavaScript's `\s` class, which is also the set `String.prototype.trim`
      strips: the WhiteSpace and LineTerminator code points of ECMA-262. */
  predicate IsSpace(c: char) {
    || ('\t' <= c <= '\r')
    || c == ' '
    || c == '\U{A0}'
    || c == '\U{1680}'
    || ('\U{2000}' <= c <= '\U{200A}')
    || c == '\U{2028}' || c == '\U{2029}'
    || c == '\U{202F}' || c == '\U{205F}'
    || c == '\U{3000}' || c == '\U{FEFF}'
  }

  /** The regular-expression class `\w`; `\b` holds where it changes. */
  predicate IsWordChar(c: char) {
    ('a' <= c <= 'z') || ('A' <= c <= 'Z') || ('0' <= c <= '9') || c == '_'
  }

  predicate NoSpace(s: string) {
    forall i :: 0 <= i < |s| ==> !IsSpace(s[i])
  }

  predicate OnlySpace(s: string) {
    forall i :: 0 <= i < |s| ==> IsSpace(s[i])
  }

  /** Every whitespace character of `s` is `sep`. */
  predicate SpacesAre(s: string, sep: char) {
    forall i :: 0 <= i < |s| && IsSpace(s[i]) ==> s[i] == sep
  }

  /** No two whitespace characters of `s` are adjacent. */
  predicate NoAdjacentSpaces(s: string) {
    forall i, j :: 0 <= i < |s| && 0 <= j < |s| && j == i + 1 && IsSpace(s[i]) ==> !IsSpace(s[j])
  }

  /** Every whitespace character is a plain space followed by a non-space. */
  predicate SingleSpaced(s: string) {
    SpacesAre(s, ' ') && NoAdjacentSpaces(s)
  }

  /** No whitespace at either end and no whitespace run longer than one plain space. */
  predicate Normalized(s: string) {
    && SingleSpaced(s)
    && (|s| > 0 ==> !IsSpace(s[0]) && !IsSpace(s[|s| - 1]))
  }

  predicate IsPrefix(p: string, s: string) {
    |p| <= |s| && s[..|p|] == p
  }

  predicate IsSuffix(p: string, s: string) {
    |p| <= |s| && s[|s| - |p|..] == p
  }

  /** `t` occurs in `s` starting at position `i`. */
  predicate OccursAt(s: string, t: string, i: int) {
    0 <= i <= |s| - |t| && s[i..i + |t|] == t
  }

  /** `s.includes(t)`, by scanning the start positions of `s` in turn. */
  predicate Contains(s: string, t: string)
    decreases |s|
  {
    IsPrefix(t, s) || (|s| > 0 && Contains(s[1..], t))
  }

  /** Length of the leading whitespace run of `s`. */
  function LeadingSpaces(s: string): (n: nat)
    ensures n <= |s|
    ensures forall i :: 0 <= i < n ==> IsSpace(s[i])
    ensures n < |s| ==> !IsSpace(s[n])
  {
    if |s| > 0 && IsSpace(s[0]) then 1 + LeadingSpaces(s[1..]) else 0
  }

  /** Length of the trailing whitespace run of `s`. */
  function TrailingSpaces(s: string): (n: nat)
    ensures n <= |s|
    ensures forall i :: |s| - n <= i < |s| ==> IsSpace(s[i])
    ensures n < |s| ==> !IsSpace(s[|s| - n - 1])
  {
    if |s| > 0 && IsSpace(s[|s| - 1]) then 1 + TrailingSpaces(s[..|s| - 1]) else 0
  }

  /** The leading whitespace run of `s` removed. */
  function SkipSpaces(s: string): (r: string)
    ensures |r| > 0 ==> !IsSpace(r[0])
    ensures |s| > 0 && IsSpace(s[0]) ==> |r| < |s|
  {
    s[LeadingSpaces(s)..]
  }

  /** `s.trim()`: `s[a..b]` with the whitespace before `a` and after `b` removed. */
  function Trim(s: string): (r: string)
    ensures exists a, b :: && 0 <= a <= b <= |s| && r == s[a..b]
                           && (forall k :: 0 <= k < a ==> IsSpace(s[k]))
                           && (forall k :: b <= k < |s| ==> IsSpace(s[k]))
    ensures |r| > 0 ==> !IsSpace(r[0]) && !IsSpace(r[|r| - 1])
    ensures |s| > 0 && !IsSpace(s[0]) && !IsSpace(s[|s| - 1]) ==> r == s
  {
    var t := SkipSpaces(s);
    var n := |t| - TrailingSpaces(t);
    TrimSpan(s);
    TrimEnds(s);
    TrimKeeps(s);
    t[..n]
  }

  /** The trimmed text is a slice with only whitespace cut off either side. */
  lemma TrimSpan(s: string)
    ensures var t := SkipSpaces(s);
            var n := |t| - TrailingSpaces(t);
            exists a, b :: && 0 <= a <= b <= |s| && t[..n] == s[a..b]
                           && (forall k :: 0 <= k < a ==> IsSpace(s[k]))
                           && (forall k :: b <= k < |s| ==> IsSpace(s[k]))
  {
    var a := LeadingSpaces(s);
    var t := SkipSpaces(s);
    var n := |t| - TrailingSpaces(t);
    var b := a + n;
    assert t[..n] == s[a..b];
    assert forall k :: b <= k < |s| ==> IsSpace(s[k]) by {
      assert forall k :: b <= k < |s| ==> s[k] == t[k - a];
    }
  }

  /** The trimmed text neither starts nor ends with whitespace. */
  lemma TrimEnds(s: string)
    ensures var t := SkipSpaces(s);
            var n := |t| - TrailingSpaces(t);
            n > 0 ==> !IsSpace(t[..n][0]) && !IsSpace(t[..n][n - 1])
  {
    var t := SkipSpaces(s);
    var n := |t| - TrailingSpaces(t);
    if n > 0 {
      assert t[..n][0] == t[0] && t[..n][n - 1] == t[n - 1];
    }
  }

  /** A text without whitespace at either end is its own trim. */
  lemma TrimKeeps(s: string)
    ensures var t := SkipSpaces(s);
            var n := |t| - TrailingSpaces(t);
            |s| > 0 && !IsSpace(s[0]) && !IsSpace(s[|s| - 1]) ==> t[..n] == s
  {
    if |s| > 0 && !IsSpace(s[0]) && !IsSpace(s[|s| - 1]) {
      assert LeadingSpaces(s) == 0 && SkipSpaces(s) == s;
      assert TrailingSpaces(s) == 0;
    }
  }

  /** Trimming a single-spaced string leaves it single-spaced. */
  lemma TrimKeepsSingleSpaced(s: string)
    requires SingleSpaced(s)
    ensures SingleSpaced(Trim(s))
  {
    var a := LeadingSpaces(s);
    var r := Trim(s);
    assert r == s[a..a + |r|];
    SingleSpacedSlice(s, a, a + |r|);
  }

  /** Every slice of a single-spaced string is single-spaced. */
  lemma SingleSpacedSlice(s: string, a: nat, b: nat)
    requires SingleSpaced(s) && a <= b <= |s|
    ensures SingleSpaced(s[a..b])
  {
    assert forall i :: 0 <= i < b - a ==> s[a..b][i] == s[a + i];
  }

  /** `s.replace(/\s+/g, sep)`: every maximal whitespace run becomes one `sep`. */
  function ReplaceSpaceRuns(s: string, sep: char): (r: string)
    ensures |r| <= |s|
    ensures |s| > 0 ==> |r| > 0 && r[0] == (if IsSpace(s[0]) then sep else s[0])
    ensures SpacesAre(r, sep) && NoAdjacentSpaces(r)
    decreases |s|
  {
    if |s| == 0 then ""
    else if IsSpace(s[0]) then [sep] + ReplaceSpaceRuns(SkipSpaces(s), sep)
    else [s[0]] + ReplaceSpaceRuns(s[1..], sep)
  }

  /** `s.replace(/\s+/g, ' ')`. */
  function Collapse(s: string): (r: string)
    ensures SingleSpaced(r)
  {
    ReplaceSpaceRuns(s, ' ')
  }

  /** `s.replace(/\s+/g, ' ').trim()`. */
  function Normalize(s: string): (r: string)
    ensures Normalized(r)
    ensures Visible(r) == Visible(s)
    ensures Normalized(s) ==> r == s
  {
    var r := Trim(Collapse(s));
    TrimKeepsSingleSpaced(Collapse(s));
    VisibleReplace(s, ' ');
    VisibleTrim(Collapse(s));
    assert Normalized(s) ==> r == s by {
      if Normalized(s) {
        CollapseKeepsSingleSpaced(s);
      }
    }
    r
  }

  /** Index of the first whitespace character of `s`, or `|s|` when there is none. */
  function FirstSpace(s: string): (i: nat)
    ensures i <= |s| && NoSpace(s[..i])
    ensures i < |s| ==> IsSpace(s[i])
  {
    if |s| == 0 || IsSpace(s[0]) then 0 else 1 + FirstSpace(s[1..])
  }

  /** `s.split(/\s+/)`: the fields between whitespace runs; a leading or
      trailing run yields an empty first or last field, and `""` splits to `[""]`. */
  function SplitSpaces(s: string): (words: seq<string>)
    ensures |words| > 0
    ensures forall k :: 0 <= k < |words| ==> NoSpace(words[k])
    decreases |s|
  {
    var i := FirstSpace(s);
    if i == |s| then [s] else [s[..i]] + SplitSpaces(SkipSpaces(s[i..]))
  }

  /** In `a + rest`, with no whitespace in `a` and `rest` empty or starting
      with whitespace, the first whitespace is where `a` ends. */
  lemma {:induction false} FirstSpaceAfterWord(a: string, rest: string)
    requires NoSpace(a) && (|rest| == 0 || IsSpace(rest[0]))
    ensures FirstSpace(a + rest) == |a|
    decreases |a|
  {
    if |a| == 0 {
      assert a + rest == rest;
    } else {
      assert (a + rest)[0] == a[0];
      assert (a + rest)[1..] == a[1..] + rest;
      FirstSpaceAfterWord(a[1..], rest);
    }
  }

  /** Two whitespace-free words joined by one space split back into them. */
  lemma SplitTwoWords(a: string, b: string)
    requires NoSpace(a) && NoSpace(b) && |b| > 0
    ensures SplitSpaces(a + [' '] + b) == [a, b]
  {
    var s := a + [' '] + b;
    assert s == a + ([' '] + b);
    FirstSpaceAfterWord(a, [' '] + b);
    assert s[..|a|] == a && s[|a|..] == [' '] + b;
    assert SkipSpaces([' '] + b) == b by {
      assert LeadingSpaces(([' '] + b)[1..]) == 0 by {
        assert ([' '] + b)[1..] == b;
      }
      assert ([' '] + b)[1..] == b;
    }
    assert SplitSpaces(b) == [b] by {
      FirstSpaceAfterWord(b, "");
      assert b + "" == b;
    }
  }

  /** `words.join(sep)`. */
  function Join(words: seq<string>, sep: char): string {
    if |words| == 0 then ""
    else if |words| == 1 then words[0]
    else words[0] + [sep] + Join(words[1..], sep)
  }

  function LowerChar(c: char): char {
    if ('A' <= c <= 'Z') || ('\U{C0}' <= c <= '\U{DE}' && c != '\U{D7}') then (c as int + 32) as char else c
  }

  /** `s.toLowerCase()` on ASCII and Latin-1 letters. */
  function Lower(s: string): (r: string)
    ensures |r| == |s|
    ensures forall i :: 0 <= i < |s| ==> r[i] == LowerChar(s[i])
    ensures forall i :: 0 <= i < |r| ==> !('A' <= r[i] <= 'Z')
  {
    seq(|s|, i requires 0 <= i < |s| => LowerChar(s[i]))
  }

  /** No whitespace character is a word character. */
  /** Lower-casing works character by character, so it distributes over
      concatenation. */
  lemma LowerAppend(a: string, b: string)
    ensures Lower(a + b) == Lower(a) + Lower(b)
  {
    assert forall i :: 0 <= i < |a + b| ==> Lower(a + b)[i] == (Lower(a) + Lower(b))[i];
  }

  /** Lower-casing never turns a character into whitespace. */
  lemma LowerKeepsNoSpace(a: string)
    requires NoSpace(a)
    ensures NoSpace(Lower(a))
  {
  }

  lemma SpaceIsNotWord(c: char)
    ensures IsSpace(c) ==> !IsWordChar(c)
  {
  }

  /** The non-whitespace characters of `s`, in order. */
  function Visible(s: string): string {
    if |s| == 0 then ""
    else (if IsSpace(s[0]) then "" else [s[0]]) + Visible(s[1..])
  }

  // ---------------------------------------------------------------------
  // Lemmas
  // ---------------------------------------------------------------------

  lemma {:induction false} VisibleAppend(a: string, b: string)
    ensures Visible(a + b) == Visible(a) + Visible(b)
    decreases |a|
  {
    if |a| == 0 {
      assert a + b == b;
    } else {
      var ab := a + b;
      assert ab[0] == a[0] && ab[1..] == a[1..] + b;
      VisibleAppend(a[1..], b);
    }
  }

  lemma {:induction false} VisibleOnlySpace(s: string)
    requires OnlySpace(s)
    ensures Visible(s) == ""
    decreases |s|
  {
    if |s| > 0 {
      VisibleOnlySpace(s[1..]);
    }
  }

  /** Replacing whitespace runs by a whitespace character keeps every other
      character, in order. */
  lemma {:induction false} VisibleReplace(s: string, sep: char)
    requires IsSpace(sep)
    ensures Visible(ReplaceSpaceRuns(s, sep)) == Visible(s)
    decreases |s|
  {
    if |s| > 0 {
      if IsSpace(s[0]) {
        var n := LeadingSpaces(s);
        var rest := SkipSpaces(s);
        VisibleReplace(rest, sep);
        assert s == s[..n] + rest;
        VisibleAppend(s[..n], rest);
        VisibleOnlySpace(s[..n]);
        VisibleAppend([sep], ReplaceSpaceRuns(rest, sep));
        assert Visible([sep]) == "" by {
          assert [sep][1..] == [];
        }
      } else {
        VisibleReplace(s[1..], sep);
        var r := ReplaceSpaceRuns(s, sep);
        assert r == [s[0]] + ReplaceSpaceRuns(s[1..], sep);
        assert r[0] == s[0] && r[1..] == ReplaceSpaceRuns(s[1..], sep);
      }
    }
  }

  /** Trimming removes only whitespace. */
  lemma VisibleTrim(s: string)
    ensures Visible(Trim(s)) == Visible(s)
  {
    var a, b :| && 0 <= a <= b <= |s| && Trim(s) == s[a..b]
                && (forall k :: 0 <= k < a ==> IsSpace(s[k]))
                && (forall k :: b <= k < |s| ==> IsSpace(s[k]));
    var x, m, y := s[..a], s[a..b], s[b..];
    assert s == x + m + y;
    assert Visible(x) == "" by {
      assert OnlySpace(x);
      VisibleOnlySpace(x);
    }
    assert Visible(y) == "" by {
      assert OnlySpace(y);
      VisibleOnlySpace(y);
    }
    assert Visible(x + m + y) == Visible(x) + Visible(m) + Visible(y) by {
      VisibleAppend(x + m, y);
      VisibleAppend(x, m);
    }
  }

  /** Normalizing is trimming the whitespace-split fields joined by single spaces. */
  lemma NormalizeIsJoinedFields(s: string)
    ensures Normalize(s) == Trim(Join(SplitSpaces(s), ' '))
  {
    JoinSplitIsReplace(s, ' ');
  }

  /** `Contains` agrees with the positional definition of a substring. */
  lemma {:induction false} ContainsIff(s: string, t: string)
    ensures Contains(s, t) <==> exists i :: OccursAt(s, t, i)
    decreases |s|
  {
    if IsPrefix(t, s) {
      assert OccursAt(s, t, 0);
    } else if |s| == 0 {
      assert forall i :: !OccursAt(s, t, i);
    } else {
      ContainsIff(s[1..], t);
      if Contains(s[1..], t) {
        var i :| OccursAt(s[1..], t, i);
        assert s[1..][i..i + |t|] == s[i + 1..i + 1 + |t|];
        assert OccursAt(s, t, i + 1);
      }
      if exists i :: OccursAt(s, t, i) {
        var i :| OccursAt(s, t, i);
        assert i != 0;
        assert s[1..][i - 1..i - 1 + |t|] == s[i..i + |t|];
        assert OccursAt(s[1..], t, i - 1);
      }
    }
  }

  /** A space-free prefix passes through `ReplaceSpaceRuns` unchanged. */
  lemma {:induction false} ReplaceSpaceRunsCopiesPrefix(s: string, sep: char, i: nat)
    requires i <= |s| && NoSpace(s[..i])
    ensures ReplaceSpaceRuns(s, sep) == s[..i] + ReplaceSpaceRuns(s[i..], sep)
    decreases i
  {
    if i > 0 {
      assert !IsSpace(s[0]) by {
        assert s[..i][0] == s[0];
      }
      var tail := s[1..];
      assert NoSpace(tail[..i - 1]) by {
        assert tail[..i - 1] == s[..i][1..];
      }
      ReplaceSpaceRunsCopiesPrefix(tail, sep, i - 1);
      assert s[..i] == [s[0]] + tail[..i - 1] && tail[i - 1..] == s[i..];
      calc {
        ReplaceSpaceRuns(s, sep);
        [s[0]] + ReplaceSpaceRuns(tail, sep);
        [s[0]] + (tail[..i - 1] + ReplaceSpaceRuns(s[i..], sep));
        s[..i] + ReplaceSpaceRuns(s[i..], sep);
      }
    } else {
      assert s[..0] == "" && s[0..] == s;
    }
  }

  /** Splitting on whitespace runs and joining with `sep` is the same as
      replacing every whitespace run by `sep`: `s.split(/\s+/).join(sep)`
      equals `s.replace(/\s+/g, sep)`. */
  lemma {:induction false} JoinSplitIsReplace(s: string, sep: char)
    ensures Join(SplitSpaces(s), sep) == ReplaceSpaceRuns(s, sep)
    decreases |s|
  {
    var i := FirstSpace(s);
    if i == |s| {
      assert ReplaceSpaceRuns(s, sep) == s by {
        ReplaceSpaceRunsCopiesPrefix(s, sep, i);
        assert s[i..] == "" && s[..i] == s;
      }
    } else {
      var rest := SkipSpaces(s[i..]);
      SplitStep(s, sep, i);
      ReplaceStep(s, sep, i);
      JoinSplitIsReplace(rest, sep);
    }
  }

  /** Joining the split of `s` at its first whitespace run `i`. */
  lemma SplitStep(s: string, sep: char, i: nat)
    requires i == FirstSpace(s) && i < |s|
    ensures Join(SplitSpaces(s), sep) == s[..i] + ([sep] + Join(SplitSpaces(SkipSpaces(s[i..])), sep))
  {
    var tail := SplitSpaces(SkipSpaces(s[i..]));
    assert SplitSpaces(s) == [s[..i]] + tail;
    JoinCons(s[..i], tail, sep);
  }

  /** Replacing the whitespace runs of `s`, whose first run starts at `i`. */
  lemma ReplaceStep(s: string, sep: char, i: nat)
    requires i == FirstSpace(s) && i < |s|
    ensures ReplaceSpaceRuns(s, sep) == s[..i] + ([sep] + ReplaceSpaceRuns(SkipSpaces(s[i..]), sep))
  {
    var t := s[i..];
    assert t[0] == s[i];
    ReplaceSpaceRunsAtSpace(t, sep);
    ReplaceSpaceRunsCopiesPrefix(s, sep, i);
  }

  /** A whitespace run at the front becomes one `sep`. */
  lemma ReplaceSpaceRunsAtSpace(t: string, sep: char)
    requires |t| > 0 && IsSpace(t[0])
    ensures ReplaceSpaceRuns(t, sep) == [sep] + ReplaceSpaceRuns(SkipSpaces(t), sep)
  {
  }

  lemma JoinCons(w: string, tail: seq<string>, sep: char)
    requires |tail| > 0
    ensures Join([w] + tail, sep) == w + [sep] + Join(tail, sep)
  {
    assert ([w] + tail)[1..] == tail;
  }

  /** Collapsing whitespace changes nothing in a string that is already single-spaced. */
  lemma {:induction false} CollapseKeepsSingleSpaced(s: string)
    requires SingleSpaced(s)
    ensures Collapse(s) == s
    decreases |s|
  {
    if |s| > 0 {
      assert SingleSpaced(s[1..]) by {
        assert forall i :: 0 <= i < |s| - 1 ==> s[1..][i] == s[i + 1];
      }
      CollapseKeepsSingleSpaced(s[1..]);
      if IsSpace(s[0]) {
        assert |s| == 1 || !IsSpace(s[1]);
        assert SkipSpaces(s) == s[1..];
      }
    }
  }
}
